=== FILE: README.md ===
# scenetax core, modelled in Dafny

scenetax is a command-line tool for writers. It keeps a novel project as a
folder tree of Markdown documents with YAML frontmatter. This project models
the core of that tool, `src/scenetax/core.py`:

- **Frontmatter codec.** `load_frontmatter` and `save_frontmatter` split a
  document into its metadata block and its body, and write it back.
- **`create`.** This makes a new version document of a character, location or
  group. It builds the slug from the name words and counts the versions
  already on disk. It then refuses, starts version 1 from the category's
  templates, or branches from an existing version. A branch copies that
  version's metadata and body and overwrites `id`, `version`, `created_at`
  and `from_version`.
- **Datasheet.** A first version's body has one Markdown bullet per field of
  the quick-capture template.
- **`archive`.** It chooses which files of the project tree go into the
  snapshot, and under which names. The archive's copy of the root document
  `scenetax.md` gets an `archived_at` stamp.
- **`newproject`.** It validates the name, derives the folder name from it,
  lists the scaffold directories and writes the root document.

Everything the tool gets from outside is a parameter:

- **Directory listings:** sequences of names or relative paths.
- **File reads:** a function from path to optional text.
- **The YAML library:** a pair of `dump` and `load` functions.
- **The template engine:** a rendering function.
- **uuid5:** a derivation function.
- **uuid4:** a given fresh id.
- **The clock:** formatted timestamp strings.

Each operation is then a pure function from those inputs. It returns either
what it writes or the error that stops it (`parser.error`, or an
exception). The partial archive a failed `archive` leaves behind is not
modelled (see "Left out").

Modules, in dependency order:

- `Wrappers`: `Option` and `Result`.
- `Text`: Python string operations with Python's semantics. These are
  `split` on one character, `join`, `strip`/`lstrip`, `lower`/`capitalize`,
  `startswith`, `find`, `replace` and `str(n)`.
- `Meta`: insertion-ordered metadata with Python `dict` assignment semantics.
- `Frontmatter`: the document codec.
- `Layout`: categories, fixed folder names and the scaffold.
- `Versions`: slug, version count, version selection and contiguity of
  version numbers.
- `Datasheet`: first-version bodies.
- `Entity`: `create`.
- `Archive`: `archive`.
- `Project`: `newproject`.

## Model

| member | source | states |
|---|---|---|
| Text.LowerKeepsOut | src/scenetax/core.py:176 | lower-casing introduces no character that is not a lower-case letter, so slug words stay free of underscores |
| Text.LStrip | src/scenetax/core.py:27 | `lstrip` removes exactly the leading run of whitespace: the result is a suffix, does not start with whitespace, and everything removed is whitespace |
| Text.Strip | src/scenetax/core.py:127 | `strip` gives the slice of the text left once the whitespace runs at both ends are gone: only whitespace lies around it and it neither starts nor ends with whitespace. It is empty exactly when the text is all whitespace |
| Text.Find | src/scenetax/core.py:25 | the position `split("---", 2)` cuts at is the first occurrence of the delimiter, and -1 exactly when there is none |
| Text.JoinSplit | src/scenetax/core.py:185-187 | joining the `_`-pieces of a stem with `_` gives the stem back |
| Text.SplitJoin | src/scenetax/core.py:176 | splitting a join of separator-free pieces gives the pieces back |
| Text.JoinSplitReplaces | src/scenetax/core.py:246 | `" ".join(key.split("_"))` is the key with every underscore replaced by a space |
| Text.NatToStringInjective | src/scenetax/core.py:209 | distinct version numbers print as distinct digit strings, so distinct versions get distinct file names |
| Meta.Set | src/scenetax/core.py:253-256 | a dictionary assignment makes the key hold the new value and leaves every other key's value alone |
| Meta.SetKeyOrder | src/scenetax/core.py:253-256 | an assignment keeps every key in place, and appends the key when it was absent |
| Meta.SetAllKeyOrder | src/scenetax/core.py:253-256 | a run of assignments to distinct keys keeps the existing keys in place and appends the assigned keys that were absent, in assignment order |
| Meta.SetAllAssigns | src/scenetax/core.py:253-256 | after a run of assignments, a key holds the last value assigned to it |
| Meta.SetAllKeepsOthers | src/scenetax/core.py:253-256 | a key no assignment touches keeps its value |
| Meta.SetKeepsKeysDistinct | src/scenetax/core.py:108 | an assignment never duplicates a key |
| Meta.SetAllKeepsKeysDistinct | src/scenetax/core.py:253-256 | a run of assignments never duplicates a key |
| Frontmatter.Parse | src/scenetax/core.py:21-29 | text that does not start with `---` is all body, with empty metadata. Otherwise parsing fails exactly when no second `---` follows. On success the metadata is what the block between the opening `---` and the first `---` after it loads to. The body is the suffix of the text that follows that delimiter and a run of whitespace, and it does not start with whitespace |
| Frontmatter.Serialize | src/scenetax/core.py:39-43 | a saved document opens with `---` and closes it again, so loading it never finds the frontmatter unterminated; the body is the text's tail |
| Frontmatter.ParseAfterBlock | src/scenetax/core.py:25-27 | after the opening delimiter, a serialised document splits at the closing delimiter into the framed block and the body |
| Frontmatter.ParseSerialize | src/scenetax/core.py:21-43 | parsing what `save_frontmatter` writes gives back the metadata and the body. This holds when the body does not start with whitespace, and the dumped, stripped YAML block contains no `---` and reloads to the metadata |
| Layout.ScaffoldDirs | src/scenetax/core.py:51-80 | the scaffold is 21 directories and includes the archive folder and every category's datasheet folder |
| Layout.DatasheetFolder | src/scenetax/core.py:162-170 | every category keeps its versions in a folder directly under `10_Lore_and_Planning` |
| Layout.DatasheetFoldersDistinct | src/scenetax/core.py:162-170 | distinct categories keep their versions in distinct folders |
| Layout.TemplateKey | src/scenetax/core.py:234 | the template folder of a category is its enum member name lower-cased |
| Versions.SlugSplitsIntoWords | src/scenetax/core.py:175-176 | the slug splits back into the lower-cased name words when no word holds an underscore |
| Versions.DisplayName | src/scenetax/core.py:175 | the display name splits back into the name words when no word holds a space |
| Versions.Slug | src/scenetax/core.py:176 | the slug holds no upper-case letter |
| Versions.ProcessedName | src/scenetax/core.py:184-187 | what the count compares with the slug is the stem up to its last underscore, or the empty text when there is none |
| Versions.VersionStemCounts | src/scenetax/core.py:184-189 | the file of any version of a slug is counted for that slug |
| Versions.CountVersions | src/scenetax/core.py:179-189 | the count is the number of listed stems whose processed name equals the slug |
| Versions.Matching | src/scenetax/core.py:179-189 | the counted stems are listed stems whose processed name is the slug, and there are no more of them than listed stems |
| Versions.MatchingIsFilter | src/scenetax/core.py:183-189 | a stem is counted exactly when it is listed and its processed name is the slug |
| Versions.SelectVersion | src/scenetax/core.py:191-207 | no version requested with versions present is refused; a requested version outside 1..count is refused; otherwise the new number is count+1 and the source is the latest or the requested version, 0 (no source) exactly when there is no version yet |
| Versions.ContiguousCount | src/scenetax/core.py:179-189 | with versions 1..k on disk the count is k |
| Versions.NextVersionIsFresh | src/scenetax/core.py:207-212 | with versions 1..k on disk, the file for version k+1 does not exist yet |
| Versions.NextVersionKeepsContiguity | src/scenetax/core.py:207-212 | writing version k+1 next to versions 1..k leaves versions 1..k+1 |
| Versions.LatestStep | src/scenetax/core.py:198-212 | one branch-from-latest creation on top of versions 1..k writes the new file for version k+1 and leaves versions 1..k+1 |
| Versions.LatestChainIsContiguous | src/scenetax/core.py:191-212 | starting with no version, n branch-from-latest creations leave exactly versions 1..n, and each writes a file that did not exist |
| Datasheet.Label | src/scenetax/core.py:246 | a field label is the key with underscores as spaces, capitalised; it has no underscore and line breaks only where the key has them |
| Datasheet.Line | src/scenetax/core.py:246-247 | a field without line breaks gives one line |
| Datasheet.Sheet | src/scenetax/core.py:242-247 | the datasheet is empty exactly when the template has no fields, and otherwise ends with a newline |
| Datasheet.SheetLines | src/scenetax/core.py:242-247 | the datasheet, split at newlines, is one bullet line per field in template order, then the empty text after the last newline |
| Entity.Load | src/scenetax/core.py:21-29 | loading a document succeeds exactly when the file exists and parses, and then gives the parse result |
| Entity.ProjectId | src/scenetax/core.py:214-216 | the project id is the textual `id` of the root document, and is missing exactly when that document cannot be loaded or has no textual `id` |
| Entity.Overlay | src/scenetax/core.py:251-256 | a branch of a dictionary is still a dictionary: if the source version holds no key twice, neither does the branch |
| Entity.OverlayValues | src/scenetax/core.py:253-256 | a branch's `id`, `version`, `created_at` and `from_version` hold the new values and every other key keeps the source version's value |
| Entity.OverlayKeyOrder | src/scenetax/core.py:253-256 | a branch keeps the source's key order and appends those of the four keys the source lacks, in assignment order |
| Entity.BranchUpdatesShape | src/scenetax/core.py:253-256 | a branch assigns `id`, `version`, `created_at` and `from_version`, each once, in that order |
| Entity.Branch | src/scenetax/core.py:252 | a branch keeps the source version's body |
| Entity.BranchFidelity | src/scenetax/core.py:252-256 | a branch has the source's body; its four assigned keys hold the new values; every other key keeps the source's value; the source's key order is kept, with absent assigned keys appended |
| Entity.FirstContext | src/scenetax/core.py:219-224 | the first-version template context holds `id`, `name`, `version` 1 and `created_at`, in that order |
| Entity.FirstVersion | src/scenetax/core.py:227-247 | a first version's metadata is the category's `frontmatter.yaml` rendered with that context; its body, split at newlines, is one bullet line per quick-capture field in template order when no field spans a line break |
| Entity.Ancestor | src/scenetax/core.py:251-252 | the version branched from is `slug_v{source}.md` in the category's folder; it loads exactly when that file exists and parses, and otherwise fails with the missing or malformed file |
| Entity.NewDocument | src/scenetax/core.py:226-256 | the new document fails only for a later version whose source version cannot be loaded, with that load's error |
| Entity.Write | src/scenetax/core.py:209-261 | once the version is chosen, `create` fails only for a missing or malformed file or a missing project id; otherwise it writes `slug_v{version}.md` in the category's folder |
| Entity.Create | src/scenetax/core.py:160-212 | `create` fails with "already exists" exactly when no version is requested and versions exist, and with "version does not exist" exactly when the requested version is out of range. When it succeeds it writes `slug_v{count+1}.md` in the category's folder; `Entity.CreateSucceedsWhen` says when that is |
| Entity.CreateSucceedsWhen | src/scenetax/core.py:191-252 | `create` succeeds exactly when the version selection does, the project id can be read and, for a later version, the source version can be loaded |
| Entity.CreateFirstVersion | src/scenetax/core.py:191-247 | with no version on disk and none named, and a root document with a textual `id`, `create` writes `slug_v1.md`. Its metadata is the rendered template, with the id derived from the project id and `slug_v1`; its body is the datasheet |
| Entity.WriteBranches | src/scenetax/core.py:209-261 | for a later version whose root document and selected version read and parse, the written file is `slug_v{version}.md`. It holds the selected version's branch, with the id derived from the project id and the new stem |
| Entity.CreateBranchesFrom | src/scenetax/core.py:191-261 | with versions on disk and the latest or an existing version named, and the root document and that version readable, `create` writes `slug_v{count+1}.md`. It holds the branch of that version |
| Archive.KeptPaths | src/scenetax/core.py:96-103 | a walked path is archived exactly when its first component is neither the archive folder nor `.git` and it is not the snapshot file itself, which `tarfile.add` skips |
| Archive.KeptPathsSingle | src/scenetax/core.py:98-103 | one walked path is archived or dropped on its own, by the same test |
| Archive.KeptPathsAppend | src/scenetax/core.py:98-117 | filtering a walk piece by piece gives the filter of the whole walk, so the archived paths keep the walk's order |
| Archive.EntryFor | src/scenetax/core.py:105-117 | a kept path is stored under the project name; a file named `scenetax.md` is rewritten, anything else is copied from disk; only a rewritten document that fails to parse is an error |
| Wrappers.MapAll | src/scenetax/core.py:98-117 | processing the paths in order gives one result per path, in order, and fails exactly when some path fails |
| Archive.Entries | src/scenetax/core.py:96-117 | there is one entry per archived path, in the order of the archived paths; with `Archive.KeptPathsAppend` that is walk order |
| Archive.EntriesFailWhen | src/scenetax/core.py:101-109 | archiving fails exactly when some archived `scenetax.md`, at any depth, has unterminated frontmatter |
| Archive.KeptWitness | src/scenetax/core.py:98-103 | some archived path has a property exactly when some element of the archived list has it |
| Archive.Archive | src/scenetax/core.py:83-117 | an archive succeeds exactly when its entries do. It is named `{stamp}_{project}.tar.gz` and holds exactly the entries of the archived paths. Every entry lies under the project name and outside the excluded folders, and none is the snapshot itself |
| Archive.EntriesStayInProject | src/scenetax/core.py:101-117 | no entry comes from the archive folder or `.git` or is the snapshot file, and each is prefixed with the project name |
| Archive.StampedRootReparses | src/scenetax/core.py:105-113 | a root document that parses is archived rewritten. It reads back with `archived_at` set, every other key unchanged and the body unchanged, when the body does not start with whitespace and the stamped metadata round-trips through the codec. Stamping never duplicates a key |
| Project.FolderName | src/scenetax/core.py:134 | each character of the folder name is the name's character lower-cased, or `_` for a space; so it has the name's length, no space and no upper-case ASCII letter |
| Project.FolderNameIsFixed | src/scenetax/core.py:134 | deriving a folder name from a folder name changes nothing |
| Project.ProjectName | src/scenetax/core.py:127-131 | the project name is the words joined by spaces with the whitespace at both ends removed and nothing else changed: a slice of the joined text with only whitespace around it, neither starting nor ending with whitespace. It is empty exactly when the joined words are whitespace only |
| Project.InitialRoot | src/scenetax/core.py:143-148 | a new root document holds exactly `id` and `name`, in that order, and has an empty body |
| Project.PlanProject | src/scenetax/core.py:121-148 | `newproject` refuses a blank name, and a name whose folder already exists; otherwise it creates that folder with the full scaffold and the root document for the fresh id and the stripped name |
| Project.NewProjectRejectsRepeat | src/scenetax/core.py:133-138 | once a project is created, creating it again is refused |
| Project.RootDocumentReparses | src/scenetax/core.py:143-148 | the new root document reads back as written, so the project id read later is the fresh id, when its YAML block round-trips |

## Left out

- Filesystem I/O is left out: reading, writing, `mkdir`, `glob`/`rglob` and
  `exists`/`is_dir`. Listings and file contents are parameters, and the
  operations return what they would write.
- tar/gzip writing is left out. An archive is modelled as its file name and
  its ordered entries. `tarf.add` on a directory also adds its contents again
  (which duplicates entries); that is not modelled.
- The YAML library is an abstract `dump`/`load` pair. YAML scalars other than
  text and integers are kept opaque.
- YAML errors are not modelled. `load` is total and always yields a mapping
  or null. Two error paths of the code are therefore missing:
  - `yaml.safe_load` raises on a YAML syntax error (core.py line 26).
  - A block that loads to a non-empty string or list makes the later
    dictionary access raise `TypeError` (core.py lines 108, 216 and 253).
  In both cases `Parse`, `Load`, `ProjectId` and `EntryFor` succeed in the
  model, where the code raises.
- A failed `archive` is modelled as an error and no file. The code raises
  inside `with tarfile.open(...)`, so it leaves a truncated
  `{stamp}_{project}.tar.gz` holding the entries added before the failure.
- The Jinja template engine is left out. Rendering the metadata template and
  loading the quick-capture template are parameters of `create`.
- `uuid.uuid4` and `uuid.uuid5` are left out. They are a given fresh id and
  a derivation function.
- `uuid.UUID(...)`, which validates the project id's format, is left out:
  any textual `id` is accepted.
- `datetime.now` and `strftime` are left out. Timestamps are given
  formatted strings.
- Console output (`print`, `print_help`) is left out. So is `cli.py`'s
  argument parsing and command dispatch, the `scene` handler (which only
  prints help), the `project` dispatcher (which only calls `archive`) and the
  unused `yaml_to_markdown`.
- `create`'s "Illegal category" branch is left out: `Category` is a closed
  datatype, so that branch cannot be reached.
- Glob matching is not modelled. The stems `create` counts are given as
  whatever `rglob(f"{slug}*")` returns. A slug holding glob metacharacters
  (`*`, `?`, `[`) makes that pattern match names other than those starting
  with the slug. For example, `a[b]*` matches only names starting with `ab`,
  so `a[b]_v1.md` is not counted and `create` overwrites it.
- Text.Lower: does not model Unicode case mapping; only ASCII letters change case. The same holds for Text.Capitalize.
- Layout.ScaffoldDirs: does not state that the 21 directories are pairwise distinct.
- Frontmatter.ParseSerialize: holds only for a body without leading whitespace. `load_frontmatter` strips leading whitespace from the body, so other bodies do not round-trip.
- `from_version` is an integer. 0 stands for "not given", as `not from_version` treats `None` and 0 alike.

## Notes on the code's behaviour

- The version count matches any stem whose text before the last underscore
  is the slug. It does not check for a `_v{n}` suffix, so `aria_draft`
  counts as a version of `aria`.
- Every file named `scenetax.md` is stamped, at any depth.
- A `scenetax.md` without frontmatter whose text starts with whitespace
  keeps that whitespace in its body. Its archived copy is written with
  frontmatter, so reading that copy back strips the whitespace from the
  body.
- Snapshots from earlier runs lie in the project root, so each new snapshot
  contains all the earlier ones. Only the snapshot being written is skipped.
- A datasheet line is `* **Label:** _description Example: example_`.
- The source version is read directly from the category folder, while the
  count searches that folder recursively.

=== FILE: archive.dfy ===
/** `archive`: which files of the project tree go into the snapshot, under
    which names, and with what content. The tree walk, the clock and the
    tar/gzip writer are outside the model: the walk is the given list of
    paths, the clock two formatted timestamps. */
module Archive {
  import opened Wrappers
  import opened Text
  import opened Meta
  import opened Frontmatter
  import opened Layout

  /** Top-level entries never archived: the archive folder and git's metadata. */
  const Excluded: seq<string> := [ArchiveFolder, ".git"]

  /** A path relative to the project root; it has at least one component. */
  datatype RelPath = RelPath(head: string, tail: seq<string>)

  function Parts(p: RelPath): seq<string> {
    [p.head] + p.tail
  }

  /** The last component, the file name. */
  function Name(p: RelPath): string {
    if |p.tail| == 0 then p.head else p.tail[|p.tail| - 1]
  }

  /** A file added from disk as it is, or a document added with new content. */
  datatype ArchiveEntry =
    | Copied(arcname: seq<string>, source: RelPath)
    | Rewritten(arcname: seq<string>, text: string)

  datatype Snapshot = Snapshot(fileName: string, entries: seq<ArchiveEntry>)

  /** The walk keeps a path unless its first component is excluded. */
  predicate Kept(p: RelPath)
    ensures Kept(p) <==> p.head != "99_Archive" && p.head != ".git"
  {
    p.head !in Excluded
  }

  /** Where the snapshot itself shows up in the walk: `tarfile.open` creates
      it in the project root before the walk reaches the root's files. */
  function SnapshotPath(fileName: string): RelPath {
    RelPath(fileName, [])
  }

  /** A walked path that ends up in the snapshot: it is kept, and it is not
      the snapshot being written, which `tarfile.add` skips. The snapshot's
      name ends in `.tar.gz`, so it never takes the `scenetax.md` branch
      that bypasses `add`. */
  predicate Added(p: RelPath, fileName: string) {
    Kept(p) && p != SnapshotPath(fileName)
  }

  /** The walked paths that end up in the snapshot `fileName`, in walk order. */
  function KeptPaths(items: seq<RelPath>, fileName: string): (r: seq<RelPath>)
    ensures |r| <= |items|
    ensures forall p :: p in r <==> p in items && Added(p, fileName)
  {
    if |items| == 0 then []
    else (if Added(items[0], fileName) then [items[0]] else []) + KeptPaths(items[1..], fileName)
  }

  /** One walked path is added exactly when it passes both tests. */
  lemma KeptPathsSingle(p: RelPath, fileName: string)
    ensures KeptPaths([p], fileName) == if Added(p, fileName) then [p] else []
  {
  }

  /** Filtering a walk piece by piece gives the filter of the whole walk, so
      the kept paths keep the walk's order. */
  lemma {:induction false} KeptPathsAppend(a: seq<RelPath>, b: seq<RelPath>, fileName: string)
    ensures KeptPaths(a + b, fileName) == KeptPaths(a, fileName) + KeptPaths(b, fileName)
  {
    if |a| == 0 {
      assert a + b == b;
    } else {
      assert (a + b)[0] == a[0];
      assert (a + b)[1..] == a[1..] + b;
      KeptPathsAppend(a[1..], b, fileName);
    }
  }

  /** The entry one kept path becomes: a root document is loaded, stamped with
      `archived_at` and serialised again; anything else is copied. */
  function EntryFor(yaml: Yaml, project: string, read: RelPath -> string, archivedAt: string, p: RelPath)
    : (r: Result<ArchiveEntry, ParseError>)
    ensures r.Ok? ==> r.value.arcname == [project] + Parts(p)
    ensures r.Ok? ==> (r.value.Rewritten? <==> Name(p) == RootDocument)
    ensures r.Ok? && r.value.Copied? ==> r.value.source == p
    ensures r.Err? <==> Name(p) == RootDocument && Parse(yaml, read(p)).Err?
  {
    if Name(p) == RootDocument then
      var doc :- Parse(yaml, read(p));
      var stamped := Document(Set(doc.meta, "archived_at", Str(archivedAt)), doc.body);
      Ok(Rewritten([project] + Parts(p), Serialize(yaml, stamped)))
    else
      Ok(Copied([project] + Parts(p), p))
  }

  /** The entries of the snapshot `fileName` for a walk, in walk order; a root
      document that fails to parse aborts the archive. */
  function Entries(yaml: Yaml, project: string, read: RelPath -> string, archivedAt: string, fileName: string,
                   items: seq<RelPath>)
    : (r: Result<seq<ArchiveEntry>, ParseError>)
    ensures r.Ok? ==>
      && |r.value| == |KeptPaths(items, fileName)|
      && forall i :: 0 <= i < |r.value| ==>
           EntryFor(yaml, project, read, archivedAt, KeptPaths(items, fileName)[i]) == Ok(r.value[i])
  {
    MapAll(p => EntryFor(yaml, project, read, archivedAt, p), KeptPaths(items, fileName))
  }

  /** The archive fails exactly when some added root document, at any depth,
      has unterminated frontmatter. */
  lemma EntriesFailWhen(yaml: Yaml, project: string, read: RelPath -> string, archivedAt: string, fileName: string,
                        items: seq<RelPath>)
    ensures Entries(yaml, project, read, archivedAt, fileName, items).Err? <==>
      exists p :: p in items && Added(p, fileName) && Name(p) == RootDocument && Parse(yaml, read(p)).Err?
  {
    var f := p => EntryFor(yaml, project, read, archivedAt, p);
    var fails := p => Name(p) == RootDocument && Parse(yaml, read(p)).Err?;
    assert forall p :: f(p).Err? <==> fails(p);
    KeptWitness(items, fileName, fails);
  }

  /** Some added path has a property exactly when some element of the kept
      list has it. */
  lemma KeptWitness(items: seq<RelPath>, fileName: string, P: RelPath -> bool)
    ensures (exists i :: 0 <= i < |KeptPaths(items, fileName)| && P(KeptPaths(items, fileName)[i]))
        <==> (exists p :: p in items && Added(p, fileName) && P(p))
  {
    var kept := KeptPaths(items, fileName);
    if i :| 0 <= i < |kept| && P(kept[i]) {
      var p := kept[i];
      assert p in kept;
      assert p in items && Added(p, fileName) && P(p);
    }
    if p :| p in items && Added(p, fileName) && P(p) {
      assert p in kept;
      var i :| 0 <= i < |kept| && kept[i] == p;
      assert 0 <= i < |kept| && P(kept[i]);
      assert exists j :: 0 <= j < |KeptPaths(items, fileName)| && P(KeptPaths(items, fileName)[j]);
    }
  }

  /** The snapshot's file name for a timestamp and a project folder. */
  function SnapshotName(stamp: string, project: string): string {
    stamp + "_" + project + ".tar.gz"
  }

  /** `archive()` for the project folder `project`: the snapshot's file name
      and entries. The snapshot never holds itself. */
  function Archive(yaml: Yaml, project: string, items: seq<RelPath>, read: RelPath -> string,
                   stamp: string, archivedAt: string): (r: Result<Snapshot, ParseError>)
    ensures r.Ok? <==> Entries(yaml, project, read, archivedAt, SnapshotName(stamp, project), items).Ok?
    ensures r.Ok? ==> r.value.fileName == stamp + "_" + project + ".tar.gz"
    ensures r.Ok? ==> r.value.entries == Entries(yaml, project, read, archivedAt, r.value.fileName, items).value
    ensures r.Ok? ==> forall e :: e in r.value.entries ==>
      && |e.arcname| >= 2 && e.arcname[0] == project && e.arcname[1] !in Excluded
      && e.arcname != [project, r.value.fileName]
  {
    var fileName := SnapshotName(stamp, project);
    var entries :- Entries(yaml, project, read, archivedAt, fileName, items);
    EntriesStayInProject(yaml, project, read, archivedAt, fileName, items);
    Ok(Snapshot(fileName, entries))
  }

  /** Every entry lives under the project folder, none comes from an excluded
      top-level folder, and none is the snapshot file. */
  lemma EntriesStayInProject(yaml: Yaml, project: string, read: RelPath -> string, archivedAt: string,
                             fileName: string, items: seq<RelPath>)
    requires Entries(yaml, project, read, archivedAt, fileName, items).Ok?
    ensures forall e :: e in Entries(yaml, project, read, archivedAt, fileName, items).value ==>
      && |e.arcname| >= 2 && e.arcname[0] == project && e.arcname[1] !in Excluded
      && e.arcname != [project, fileName]
  {
    var entries := Entries(yaml, project, read, archivedAt, fileName, items).value;
    var kept := KeptPaths(items, fileName);
    forall e | e in entries
      ensures && |e.arcname| >= 2 && e.arcname[0] == project && e.arcname[1] !in Excluded
              && e.arcname != [project, fileName]
    {
      var i :| 0 <= i < |entries| && entries[i] == e;
      var p := kept[i];
      assert EntryFor(yaml, project, read, archivedAt, p) == Ok(e);
      assert p in kept;
      ArcnameInProject(project, fileName, p, e.arcname);
    }
  }

  /** The name an added path is archived under starts with the project name
      followed by a folder that is not excluded, and is not the snapshot's. */
  lemma ArcnameInProject(project: string, fileName: string, p: RelPath, arcname: seq<string>)
    requires arcname == [project] + Parts(p)
    requires Added(p, fileName)
    ensures |arcname| >= 2 && arcname[0] == project && arcname[1] !in Excluded
    ensures arcname != [project, fileName]
  {
    assert arcname[1] == Parts(p)[0] == p.head;
    assert arcname[2..] == p.tail;
  }

  /** Reading an archived root document back gives the original metadata with
      `archived_at` set, every other key unchanged, no key twice, and the
      original body; this needs the conditions under which the codec
      round-trips. */
  lemma StampedRootReparses(yaml: Yaml, project: string, read: RelPath -> string, archivedAt: string, p: RelPath,
                             doc: Document, block: string)
    requires Name(p) == RootDocument
    requires Parse(yaml, read(p)) == Ok(doc)
    requires block == Block(yaml, Set(doc.meta, "archived_at", Str(archivedAt)))
    requires NoLeadingSpace(doc.body)
    requires !Contains(block, Delimiter)
    requires Reloads(yaml, block, Set(doc.meta, "archived_at", Str(archivedAt)))
    ensures var e := EntryFor(yaml, project, read, archivedAt, p);
      && e.Ok? && e.value.Rewritten?
      && Parse(yaml, e.value.text).Ok?
      && Parse(yaml, e.value.text).value.body == doc.body
      && Lookup(Parse(yaml, e.value.text).value.meta, "archived_at") == Some(Str(archivedAt))
      && (forall k :: k != "archived_at" ==> Lookup(Parse(yaml, e.value.text).value.meta, k) == Lookup(doc.meta, k))
      && (DistinctKeys(doc.meta) ==> DistinctKeys(Parse(yaml, e.value.text).value.meta))
  {
    var stamped := Document(Set(doc.meta, "archived_at", Str(archivedAt)), doc.body);
    ParseSerialize(yaml, stamped, block);
    if DistinctKeys(doc.meta) {
      SetKeepsKeysDistinct(doc.meta, "archived_at", Str(archivedAt));
    }
  }
}

=== FILE: datasheet.dfy ===
/** The body of a first version: one Markdown bullet per field of the
    category's quick-capture template, in the template's order. */
module Datasheet {
  import opened Text

  /** One quick-capture field: its key and the description and example text. */
  datatype Field = Field(key: string, description: string, example: string)

  /** `" ".join(key.split("_")).capitalize()`: the key with underscores
      turned into spaces, first letter upper case, the rest lower case. */
  function Label(key: string): (r: string)
    ensures r == Capitalize(ReplaceChar(key, '_', ' '))
    ensures '_' !in r
    ensures forall i :: 0 <= i < |r| ==> (r[i] == '\n' <==> key[i] == '\n')
  {
    JoinSplitReplaces(key, '_', ' ');
    Capitalize(Join(Split(key, '_'), " "))
  }

  /** No part of the field spans a line break. */
  predicate SingleLine(f: Field) {
    '\n' !in f.key && '\n' !in f.description && '\n' !in f.example
  }

  /** The text of a field's bullet line, without its newline: a single-line
      field gives a single line. */
  function Line(f: Field): (r: string)
    ensures SingleLine(f) ==> '\n' !in r
  {
    var shown := Label(f.key);
    assert SingleLine(f) ==> '\n' !in shown by {
      if SingleLine(f) {
        forall i | 0 <= i < |shown|
          ensures shown[i] != '\n'
        {
          assert shown[i] == '\n' <==> f.key[i] == '\n';
        }
      }
    }
    "* **" + shown + ":** _" + f.description + " Example: " + f.example + "_"
  }

  /** The datasheet: each field's line followed by a newline. It is empty
      exactly when there are no fields, and otherwise ends with a newline. */
  function Sheet(fields: seq<Field>): (r: string)
    ensures r == "" <==> |fields| == 0
    ensures |fields| > 0 ==> r[|r| - 1] == '\n'
  {
    if |fields| == 0 then "" else Line(fields[0]) + "\n" + Sheet(fields[1..])
  }

  function Lines(fields: seq<Field>): (r: seq<string>)
    ensures |r| == |fields|
    ensures forall i :: 0 <= i < |fields| ==> r[i] == Line(fields[i])
  {
    if |fields| == 0 then [] else [Line(fields[0])] + Lines(fields[1..])
  }

  /** Split at newlines, the datasheet is exactly one line per field in field
      order, followed by the empty text after the final newline. */
  lemma {:induction false} SheetLines(fields: seq<Field>)
    requires forall i :: 0 <= i < |fields| ==> SingleLine(fields[i])
    ensures Split(Sheet(fields), '\n') == Lines(fields) + [""]
  {
    if |fields| > 0 {
      SheetLines(fields[1..]);
      SplitConcat(Line(fields[0]), Sheet(fields[1..]), '\n');
      SplitNoSeparator(Line(fields[0]), '\n');
      assert Lines(fields) == [Line(fields[0])] + Lines(fields[1..]);
    }
  }

  /** The same, for any fields: whenever none spans a line break. */
  lemma SheetLinesWhenSingle(fields: seq<Field>)
    ensures (forall i :: 0 <= i < |fields| ==> SingleLine(fields[i])) ==>
      Split(Sheet(fields), '\n') == Lines(fields) + [""]
  {
    if forall i :: 0 <= i < |fields| ==> SingleLine(fields[i]) {
      SheetLines(fields);
    }
  }
}

=== FILE: entity.dfy ===
/** `create`: a new version document of a character, location or group.
    The directory listing, the file contents, the id derivation (uuid5), the
    clock and the template renderer are given as values, so the operation is
    a pure function from them to the file to write, or to the error that
    stops it. */
module Entity {
  import opened Wrappers
  import opened Text
  import opened Meta
  import opened Frontmatter
  import opened Layout
  import opened Versions
  import opened Datasheet

  datatype CreateError =
    | EntityExists(name: string)       // versions exist and none was asked for
    | VersionMissing                   // the version asked for is not 1..count
    | MissingFile(path: seq<string>)   // a document to read is absent
    | Malformed(path: seq<string>)     // its frontmatter has no closing `---`
    | MissingProjectId                 // the root document has no textual `id`

  /** What `create` reads from outside:
      - `yaml`: the YAML library;
      - `read`: the text of the file at a project-relative path, if it exists;
      - `derive`: `uuid5(namespace, name)`, as text;
      - `now`: the creation timestamp, already formatted;
      - `render`: a metadata template rendered with a context and loaded as YAML;
      - `fieldsOf`: a quick-capture field template, loaded as YAML. */
  datatype Env = Env(
    yaml: Yaml,
    read: seq<string> -> Option<string>,
    derive: (string, string) -> string,
    now: string,
    render: (string, Metadata) -> Metadata,
    fieldsOf: string -> seq<Field>)

  /** The file to write: its project-relative path and its content. */
  datatype Created = Created(path: seq<string>, doc: Document)

  /** `load_frontmatter(path)`, failing where the file is absent or malformed. */
  function Load(env: Env, path: seq<string>): (r: Result<Document, CreateError>)
    ensures r.Ok? <==> env.read(path).Some? && Parse(env.yaml, env.read(path).value).Ok?
    ensures r.Ok? ==> Parse(env.yaml, env.read(path).value) == Ok(r.value)
    ensures r.Err? ==> r.error == MissingFile(path) || r.error == Malformed(path)
  {
    match env.read(path)
    case None => Err(MissingFile(path))
    case Some(text) =>
      match Parse(env.yaml, text)
      case Err(_) => Err(Malformed(path))
      case Ok(doc) => Ok(doc)
  }

  /** The project id: the `id` text of the root document. */
  function ProjectId(env: Env): (r: Result<string, CreateError>)
    ensures r.Ok? <==>
      && Load(env, [RootDocument]).Ok?
      && Lookup(Load(env, [RootDocument]).value.meta, "id").Some?
      && Lookup(Load(env, [RootDocument]).value.meta, "id").value.Str?
    ensures r.Ok? ==> Lookup(Load(env, [RootDocument]).value.meta, "id") == Some(Str(r.value))
  {
    var root :- Load(env, [RootDocument]);
    match Lookup(root.meta, "id")
    case Some(Str(id)) => Ok(id)
    case _ => Err(MissingProjectId)
  }

  /** The keys a branched version overwrites, in the order it sets them. */
  const BranchKeys: seq<string> := ["id", "version", "created_at", "from_version"]

  /** The assignments a branch makes, in order. */
  function BranchUpdates(id: string, version: nat, createdAt: string, from: nat): Metadata {
    [("id", Str(id)), ("version", Int(version)), ("created_at", Str(createdAt)), ("from_version", Int(from))]
  }

  /** The branch overlay: the source metadata with `id`, `version`,
      `created_at` and `from_version` assigned. A dictionary stays a
      dictionary: no key appears twice. */
  function Overlay(m: Metadata, id: string, version: nat, createdAt: string, from: nat): (r: Metadata)
    ensures DistinctKeys(m) ==> DistinctKeys(r)
  {
    SetAllKeepsKeysDistinct(m, BranchUpdates(id, version, createdAt, from));
    SetAll(m, BranchUpdates(id, version, createdAt, from))
  }

  /** The branch assigns each of the four keys once. */
  lemma BranchUpdatesShape(id: string, version: nat, createdAt: string, from: nat)
    ensures Keys(BranchUpdates(id, version, createdAt, from)) == BranchKeys
    ensures DistinctKeys(BranchUpdates(id, version, createdAt, from))
  {
    var u := BranchUpdates(id, version, createdAt, from);
    assert Keys(u)[0] == "id" && Keys(u)[1] == "version";
    assert Keys(u)[2] == "created_at" && Keys(u)[3] == "from_version";
    assert "id"[0] != "version"[0] && "id"[0] != "created_at"[0] && "id"[0] != "from_version"[0];
    assert "version"[0] != "created_at"[0] && "version"[0] != "from_version"[0];
    assert "created_at"[0] != "from_version"[0];
  }

  /** The four overwritten keys hold the new values; every other key keeps
      its value. */
  lemma OverlayValues(m: Metadata, id: string, version: nat, createdAt: string, from: nat)
    ensures var r := Overlay(m, id, version, createdAt, from);
      && Lookup(r, "id") == Some(Str(id))
      && Lookup(r, "version") == Some(Int(version))
      && Lookup(r, "created_at") == Some(Str(createdAt))
      && Lookup(r, "from_version") == Some(Int(from))
      && forall k :: k !in BranchKeys ==> Lookup(r, k) == Lookup(m, k)
  {
    var u := BranchUpdates(id, version, createdAt, from);
    BranchUpdatesShape(id, version, createdAt, from);
    SetAllAssigns(m, u, 0);
    SetAllAssigns(m, u, 1);
    SetAllAssigns(m, u, 2);
    SetAllAssigns(m, u, 3);
    forall k | k !in BranchKeys
      ensures Lookup(SetAll(m, u), k) == Lookup(m, k)
    {
      SetAllKeepsOthers(m, u, k);
    }
  }

  /** The source keys keep their order; the overwritten keys that were
      absent follow them, in the order they are assigned. */
  lemma OverlayKeyOrder(m: Metadata, id: string, version: nat, createdAt: string, from: nat)
    ensures Keys(Overlay(m, id, version, createdAt, from)) == Keys(m) + Absent(BranchKeys, Keys(m))
  {
    BranchUpdatesShape(id, version, createdAt, from);
    SetAllKeyOrder(m, BranchUpdates(id, version, createdAt, from));
  }

  /** A new version branched from `source`. */
  function Branch(source: Document, id: string, version: nat, createdAt: string, from: nat): (r: Document)
    ensures r.body == source.body
  {
    Document(Overlay(source.meta, id, version, createdAt, from), source.body)
  }

  /** The context a first version's metadata template is rendered with:
      the new id, the display name, version 1 and the creation time. */
  function FirstContext(id: string, name: string, createdAt: string): (r: Metadata)
    ensures Keys(r) == ["id", "name", "version", "created_at"]
    ensures Lookup(r, "id") == Some(Str(id))
    ensures Lookup(r, "name") == Some(Str(name))
    ensures Lookup(r, "version") == Some(Int(1))
    ensures Lookup(r, "created_at") == Some(Str(createdAt))
  {
    var r := [("id", Str(id)), ("name", Str(name)), ("version", Int(1)), ("created_at", Str(createdAt))];
    assert "id"[0] != "name"[0] && "id"[0] != "version"[0] && "id"[0] != "created_at"[0];
    assert "name"[0] != "version"[0] && "name"[0] != "created_at"[0] && "version"[0] != "created_at"[0];
    assert DistinctKeys(r);
    LookupAt(r, 0);
    LookupAt(r, 1);
    LookupAt(r, 2);
    LookupAt(r, 3);
    r
  }

  /** A first version: the category's metadata template rendered with the
      first-version context, and a body that lists each quick-capture field
      on a line of its own, in template order. */
  function FirstVersion(env: Env, category: Category, id: string, name: string): (r: Document)
    ensures r.meta == env.render(TemplateKey(category) + "/frontmatter.yaml", FirstContext(id, name, env.now))
    ensures var fields := env.fieldsOf(TemplateKey(category) + "/quick_capture.yaml");
      (forall i :: 0 <= i < |fields| ==> SingleLine(fields[i])) ==>
        Split(r.body, '\n') == Lines(fields) + [""]
  {
    var key := TemplateKey(category);
    var fields := env.fieldsOf(key + "/quick_capture.yaml");
    SheetLinesWhenSingle(fields);
    Document(env.render(key + "/frontmatter.yaml", FirstContext(id, name, env.now)), Sheet(fields))
  }

  function SelectionError(name: string, e: SelectError): CreateError {
    match e
    case AlreadyExists => EntityExists(name)
    case NoSuchVersion => VersionMissing
  }

  /** The version count `create` computes for these words. */
  function CountFor(words: seq<string>, stems: seq<string>): nat {
    |Matching(stems, Slug(words))|
  }

  /** The version a branch copies: the latest one unless a number was given. */
  function SourceVersion(count: nat, fromVersion: int): int {
    if fromVersion <= 0 then count else fromVersion
  }

  /** The document a version branches from: `slug_v{source}.md` in the
      category's folder, read and parsed. */
  function Ancestor(env: Env, category: Category, words: seq<string>, source: nat): (r: Result<Document, CreateError>)
    ensures var path := DatasheetFolder(category) + [Slug(words) + "_v" + NatToString(source) + ".md"];
      && (r.Ok? <==> env.read(path).Some? && Parse(env.yaml, env.read(path).value).Ok?)
      && (r.Ok? ==> Parse(env.yaml, env.read(path).value) == Ok(r.value))
      && (r.Err? ==> r.error == MissingFile(path) || r.error == Malformed(path))
  {
    Load(env, DatasheetFolder(category) + [VersionFile(Slug(words), source)])
  }

  /** `create(category, words, from_version)`; `stems` are the stems of the
      files `rglob(f"{slug}*")` returns under the category's folder. */
  function Create(env: Env, category: Category, words: seq<string>, fromVersion: int, stems: seq<string>)
    : (r: Result<Created, CreateError>)
    ensures r == Err(EntityExists(DisplayName(words))) <==> fromVersion == 0 && CountFor(words, stems) > 0
    ensures r == Err(VersionMissing) <==>
      fromVersion != 0 && fromVersion != -1 && !(1 <= fromVersion <= CountFor(words, stems))
    ensures r.Ok? ==>
      r.value.path == DatasheetFolder(category) + [VersionFile(Slug(words), CountFor(words, stems) + 1)]
  {
    var count := CountFor(words, stems);
    match SelectVersion(count, fromVersion)
    case Err(e) => Err(SelectionError(DisplayName(words), e))
    case Ok(sel) =>
      var r := Write(env, category, words, sel);
      assert r.Err? ==> !r.error.EntityExists? && !r.error.VersionMissing?;
      assert sel.version == count + 1;
      r
  }

  /** Everything `create` does once the version is chosen: read the project
      id, derive the new id, build the document and name its file. */
  function Write(env: Env, category: Category, words: seq<string>, sel: Selection): (r: Result<Created, CreateError>)
    ensures r.Err? ==> r.error.MissingFile? || r.error.Malformed? || r.error.MissingProjectId?
    ensures r.Ok? ==> r.value.path == DatasheetFolder(category) + [VersionFile(Slug(words), sel.version)]
  {
    var stem := VersionStem(Slug(words), sel.version);
    var projectId :- ProjectId(env);
    var doc :- NewDocument(env, category, words, sel, env.derive(projectId, stem));
    Ok(Created(DatasheetFolder(category) + [stem + ".md"], doc))
  }

  /** The new version's document: from the templates for version 1, else
      branched from the selected version. */
  function NewDocument(env: Env, category: Category, words: seq<string>, sel: Selection, id: string)
    : (r: Result<Document, CreateError>)
    ensures r.Err? ==> sel.version != 1 && Ancestor(env, category, words, sel.source) == Err(r.error)
  {
    if sel.version == 1 then Ok(FirstVersion(env, category, id, DisplayName(words)))
    else
      match Ancestor(env, category, words, sel.source)
      case Err(e) => Err(e)
      case Ok(d) => Ok(Branch(d, id, sel.version, env.now, sel.source))
  }

  /** `create` succeeds exactly when the version selection does, the root
      document yields a project id and, for a later version, the document
      branched from can be loaded. */
  lemma CreateSucceedsWhen(env: Env, category: Category, words: seq<string>, fromVersion: int, stems: seq<string>)
    ensures var count := CountFor(words, stems);
      Create(env, category, words, fromVersion, stems).Ok? <==>
        && SelectVersion(count, fromVersion).Ok?
        && ProjectId(env).Ok?
        && (count > 0 ==> Ancestor(env, category, words, SourceVersion(count, fromVersion)).Ok?)
  {
  }

  /** With no version yet and no other version asked for, `create` writes
      version 1 built from the category's templates, its id derived from the
      project id and `slug_v1`. */
  lemma CreateFirstVersion(env: Env, category: Category, words: seq<string>, fromVersion: int, stems: seq<string>,
                           rootText: string, root: Document, projectId: string)
    requires CountFor(words, stems) == 0
    requires fromVersion == 0 || fromVersion == -1
    requires env.read([RootDocument]) == Some(rootText)
    requires Parse(env.yaml, rootText) == Ok(root)
    requires Lookup(root.meta, "id") == Some(Str(projectId))
    ensures var id := env.derive(projectId, VersionStem(Slug(words), 1));
      var key := TemplateKey(category);
      Create(env, category, words, fromVersion, stems)
        == Ok(Created(DatasheetFolder(category) + [VersionFile(Slug(words), 1)],
                      Document(env.render(key + "/frontmatter.yaml", FirstContext(id, DisplayName(words), env.now)),
                               Sheet(env.fieldsOf(key + "/quick_capture.yaml")))))
  {
    assert ProjectId(env) == Ok(projectId);
    assert SelectVersion(0, fromVersion) == Ok(Selection(0, 1));
  }

  /** A branch copies the source version's body; its metadata is the
      source's with `id`, `version`, `created_at` and `from_version`
      assigned, every other key and the key order untouched. */
  lemma BranchFidelity(source: Document, id: string, version: nat, createdAt: string, from: nat)
    ensures var doc := Branch(source, id, version, createdAt, from);
      && doc.body == source.body
      && Lookup(doc.meta, "id") == Some(Str(id))
      && Lookup(doc.meta, "version") == Some(Int(version))
      && Lookup(doc.meta, "created_at") == Some(Str(createdAt))
      && Lookup(doc.meta, "from_version") == Some(Int(from))
      && (forall k :: k !in BranchKeys ==> Lookup(doc.meta, k) == Lookup(source.meta, k))
      && Keys(doc.meta) == Keys(source.meta) + Absent(BranchKeys, Keys(source.meta))
  {
    OverlayValues(source.meta, id, version, createdAt, from);
    OverlayKeyOrder(source.meta, id, version, createdAt, from);
  }

  /** Once a later version is chosen, and the root document and the
      selected version read and parse, the file written is the branch of the
      selected version, with the id derived from the project id and the new
      stem. */
  lemma WriteBranches(env: Env, category: Category, words: seq<string>, sel: Selection,
                      rootText: string, root: Document, projectId: string,
                      sourceText: string, source: Document)
    requires sel.version != 1
    requires env.read([RootDocument]) == Some(rootText)
    requires Parse(env.yaml, rootText) == Ok(root)
    requires Lookup(root.meta, "id") == Some(Str(projectId))
    requires env.read(DatasheetFolder(category) + [VersionFile(Slug(words), sel.source)]) == Some(sourceText)
    requires Parse(env.yaml, sourceText) == Ok(source)
    ensures Write(env, category, words, sel)
      == Ok(Created(DatasheetFolder(category) + [VersionFile(Slug(words), sel.version)],
                    Branch(source, env.derive(projectId, VersionStem(Slug(words), sel.version)),
                           sel.version, env.now, sel.source)))
  {
    assert ProjectId(env) == Ok(projectId);
    assert Ancestor(env, category, words, sel.source) == Ok(source);
  }

  /** With versions present and the latest or an existing one asked for,
      `create` writes version count + 1 as the branch of that version. */
  lemma CreateBranchesFrom(env: Env, category: Category, words: seq<string>, fromVersion: int, stems: seq<string>,
                           rootText: string, root: Document, projectId: string,
                           sourceText: string, source: Document)
    requires CountFor(words, stems) > 0
    requires fromVersion == -1 || 1 <= fromVersion <= CountFor(words, stems)
    requires env.read([RootDocument]) == Some(rootText)
    requires Parse(env.yaml, rootText) == Ok(root)
    requires Lookup(root.meta, "id") == Some(Str(projectId))
    requires env.read(DatasheetFolder(category)
                      + [VersionFile(Slug(words), SourceVersion(CountFor(words, stems), fromVersion))])
             == Some(sourceText)
    requires Parse(env.yaml, sourceText) == Ok(source)
    ensures var count := CountFor(words, stems);
      Create(env, category, words, fromVersion, stems)
        == Ok(Created(DatasheetFolder(category) + [VersionFile(Slug(words), count + 1)],
                      Branch(source, env.derive(projectId, VersionStem(Slug(words), count + 1)),
                             count + 1, env.now, SourceVersion(count, fromVersion))))
  {
    var count := CountFor(words, stems);
    var sel := Selection(SourceVersion(count, fromVersion), count + 1);
    assert SelectVersion(count, fromVersion) == Ok(sel);
    WriteBranches(env, category, words, sel, rootText, root, projectId, sourceText, source);
  }
}

=== FILE: frontmatter.dfy ===
/** The frontmatter codec: a Markdown document is either plain text, or a
    `---` line, a YAML block, a `---` line, a blank line and the body.
    YAML itself is an external library; it enters the model as a pair of
    total functions, and only the text framing around it is modelled. */
module Frontmatter {
  import opened Wrappers
  import opened Text
  import opened Meta

  const Delimiter: string := "---"

  datatype Document = Document(meta: Metadata, body: string)

  /** `yaml.safe_dump(m, sort_keys=False)` and `yaml.safe_load(text)`;
      `load` yields None where the text loads to null. */
  datatype Yaml = Yaml(dump: Metadata -> string, load: string -> Option<Metadata>)

  /** `text.split("---", 2)` found fewer than two delimiters, so unpacking it
      into three parts fails. */
  datatype ParseError = UnterminatedFrontmatter

  /** The YAML block exactly as it is written between the delimiter lines. */
  function Block(yaml: Yaml, m: Metadata): string {
    Strip(yaml.dump(m))
  }

  /** `yaml.safe_load(text) or {}`. */
  function LoadBlock(yaml: Yaml, text: string): Metadata {
    match yaml.load(text)
    case None => []
    case Some(m) => m
  }

  /** The first delimiter at or after `from` in `s` starts at `c`. */
  predicate FirstDelimiterAt(s: string, from: int, c: int) {
    from <= c && OccursAt(s, Delimiter, c) && forall j :: from <= j < c ==> !OccursAt(s, Delimiter, j)
  }

  /** `s`, read from index `from` on, is a YAML block ending at the first
      delimiter, which starts at `c`, then whitespace, then `doc.body`;
      `doc.meta` is what the block loads to. */
  predicate SplitAt(yaml: Yaml, s: string, from: nat, c: int, doc: Document) {
    && from <= |s|
    && FirstDelimiterAt(s, from, c)
    && c + 3 <= |s| - |doc.body|
    && doc.meta == LoadBlock(yaml, s[from..c])
    && forall i :: c + 3 <= i < |s| - |doc.body| ==> IsSpace(s[i])
  }

  /** `load_frontmatter` on the text of a file. After an opening `---`, the
      metadata is what the block up to the first closing `---` loads to,
      and the body is what follows that delimiter once its leading
      whitespace is gone. */
  function Parse(yaml: Yaml, text: string): (r: Result<Document, ParseError>)
    ensures !StartsWith(text, Delimiter) ==> r == Ok(Document([], text))
    ensures StartsWith(text, Delimiter) ==> (r.Err? <==> !Contains(text[3..], Delimiter))
    ensures r.Ok? ==> EndsWith(text, r.value.body)
    ensures StartsWith(text, Delimiter) && r.Ok? ==> NoLeadingSpace(r.value.body)
    ensures StartsWith(text, Delimiter) && r.Ok? ==> exists c :: SplitAt(yaml, text, 3, c, r.value)
  {
    if !StartsWith(text, Delimiter) then Ok(Document([], text))
    else
      var r := ParseAfterOpening(yaml, text[3..]);
      if r.Ok? then
        EndsWithDrop(text, 3);
        EndsWithTrans(text, text[3..], r.value.body);
        var c :| SplitAt(yaml, text[3..], 0, c, r.value);
        ShiftedSplit(yaml, text, c, r.value);
        r
      else r
  }

  /** A split found after dropping the opening three characters is a split
      of the whole text after them. */
  lemma ShiftedSplit(yaml: Yaml, text: string, c: int, doc: Document)
    requires |text| >= 3
    requires SplitAt(yaml, text[3..], 0, c, doc)
    ensures SplitAt(yaml, text, 3, c + 3, doc)
  {
    var rest := text[3..];
    assert rest[c..c + 3] == text[c + 3..c + 6];
    forall j | 3 <= j < c + 3
      ensures !OccursAt(text, Delimiter, j)
    {
      assert !OccursAt(rest, Delimiter, j - 3);
      if j + 3 <= |text| {
        assert rest[j - 3..j] == text[j..j + 3];
      }
    }
    assert rest[0..c] == text[3..c + 3];
    forall i | c + 6 <= i < |text| - |doc.body|
      ensures IsSpace(text[i])
    {
      assert text[i] == rest[i - 3];
    }
  }

  /** What follows the opening `---`: the YAML block up to the next `---`,
      then the body with its leading whitespace stripped. */
  function ParseAfterOpening(yaml: Yaml, rest: string): (r: Result<Document, ParseError>)
    ensures r.Err? <==> !Contains(rest, Delimiter)
    ensures r.Ok? ==> NoLeadingSpace(r.value.body) && EndsWith(rest, r.value.body)
    ensures r.Ok? ==> exists c :: SplitAt(yaml, rest, 0, c, r.value)
  {
    var close := Find(rest, Delimiter);
    if close == -1 then Err(UnterminatedFrontmatter)
    else
      var tail := rest[close + 3..];
      var body := LStrip(tail);
      EndsWithDrop(rest, close + 3);
      EndsWithTrans(rest, tail, body);
      var doc := Document(LoadBlock(yaml, rest[..close]), body);
      SplitAtFirst(yaml, rest, close, doc);
      Ok(doc)
  }

  /** Cutting at the first delimiter and stripping what follows is a split. */
  lemma SplitAtFirst(yaml: Yaml, rest: string, close: int, doc: Document)
    requires FirstDelimiterAt(rest, 0, close)
    requires doc == Document(LoadBlock(yaml, rest[..close]), LStrip(rest[close + 3..]))
    ensures SplitAt(yaml, rest, 0, close, doc)
  {
    var tail := rest[close + 3..];
    forall i | close + 3 <= i < |rest| - |doc.body|
      ensures IsSpace(rest[i])
    {
      assert rest[i] == tail[i - close - 3];
    }
  }

  /** `save_frontmatter`: the text `save_frontmatter_to_file` also writes.
      It opens with the delimiter and closes it again after the block, so
      loading it never finds the frontmatter unterminated; the body is its
      tail. */
  function Serialize(yaml: Yaml, doc: Document): (r: string)
    ensures StartsWith(r, Delimiter)
    ensures Contains(r[3..], Delimiter)
    ensures EndsWith(r, doc.body)
  {
    FramedText(Block(yaml, doc.meta), doc.body);
    "---\n" + Block(yaml, doc.meta) + "\n---\n\n" + doc.body
  }

  /** A block framed by delimiter lines, then the body: the text opens with
      the delimiter, closes it again, and ends with the body. */
  lemma FramedText(block: string, body: string)
    ensures var r := "---\n" + block + "\n---\n\n" + body;
      StartsWith(r, Delimiter) && Contains(r[3..], Delimiter) && EndsWith(r, body)
  {
    var r := "---\n" + block + "\n---\n\n" + body;
    var rest := "\n" + block + "\n---\n\n" + body;
    SerializedShape(block, body);
    assert r[..3] == Delimiter && r[3..] == rest;
    assert rest[|block| + 2..|block| + 5] == Delimiter;
    assert OccursAt(rest, Delimiter, |block| + 2);
    EndsWithDrop(r, |r| - |body|);
  }

  /** The YAML library reads `block`, framed by the newlines around it,
      back as `m`. */
  predicate Reloads(yaml: Yaml, block: string, m: Metadata) {
    LoadBlock(yaml, "\n" + block + "\n") == m
  }

  /** The block between the delimiters is the first `---` after the opening
      one, since the dumped YAML itself contains none. */
  lemma FirstDelimiterAfterBlock(d: string, tail: string)
    requires !Contains(d, Delimiter)
    ensures Find("\n" + d + "\n---" + tail, Delimiter) == |d| + 2
  {
    var s := "\n" + d + "\n---" + tail;
    assert OccursAt(s, Delimiter, |d| + 2) by {
      assert s[|d| + 2..|d| + 5] == "---";
    }
    forall j | 0 <= j < |d| + 2
      ensures !OccursAt(s, Delimiter, j)
    {
      if 1 <= j && j + 3 <= |d| + 1 {
        assert s[j..j + 3] == d[j - 1..j + 2];
        assert !OccursAt(d, Delimiter, j - 1);
      } else if j == 0 {
        assert s[0] == '\n';
      } else {
        assert s[|d| + 1] == '\n';
        assert j <= |d| + 1 < j + 3;
        assert s[j..j + 3][|d| + 1 - j] == '\n';
      }
    }
  }

  /** What follows the opening delimiter of a serialised document parses
      to the framed block and the body. */
  lemma ParseAfterBlock(yaml: Yaml, d: string, body: string)
    requires !Contains(d, Delimiter)
    requires NoLeadingSpace(body)
    ensures ParseAfterOpening(yaml, "\n" + d + "\n---\n\n" + body)
      == Ok(Document(LoadBlock(yaml, "\n" + d + "\n"), body))
  {
    var tail := "\n\n" + body;
    var rest := "\n" + d + "\n---\n\n" + body;
    SerializedShape(d, body);
    FirstDelimiterAfterBlock(d, tail);
    assert rest[..|d| + 2] == "\n" + d + "\n";
    assert rest[|d| + 5..] == tail;
    LStripOverSpace("\n\n", body);
  }

  /** Serialising and parsing back returns the document, provided the body
      does not start with whitespace (parsing strips it) and the YAML block
      neither contains the delimiter nor fails to reload. */
  lemma ParseSerialize(yaml: Yaml, doc: Document, block: string)
    requires block == Block(yaml, doc.meta)
    requires NoLeadingSpace(doc.body)
    requires !Contains(block, Delimiter)
    requires Reloads(yaml, block, doc.meta)
    ensures Parse(yaml, Serialize(yaml, doc)) == Ok(doc)
  {
    var d := block;
    var rest := "\n" + d + "\n---\n\n" + doc.body;
    var text := Serialize(yaml, doc);
    SerializedShape(d, doc.body);
    assert StartsWith(text, Delimiter) && text[3..] == rest;
    ParseAfterBlock(yaml, d, doc.body);
  }

  /** The serialised text regrouped around the opening delimiter and the
      closing one. */
  lemma SerializedShape(d: string, body: string)
    ensures "---\n" + d + "\n---\n\n" + body == "---" + ("\n" + d + "\n---\n\n" + body)
    ensures "\n" + d + "\n---\n\n" + body == "\n" + d + "\n---" + ("\n\n" + body)
  {
    assert "---\n" == "---" + "\n";
    assert "\n---\n\n" == "\n---" + "\n\n";
  }

  /** `lstrip` drops leading whitespace and stops at the first other character. */
  lemma {:induction false} LStripOverSpace(ws: string, s: string)
    requires forall i :: 0 <= i < |ws| ==> IsSpace(ws[i])
    requires NoLeadingSpace(s)
    ensures LStrip(ws + s) == s
  {
    if |ws| > 0 {
      assert (ws + s)[1..] == ws[1..] + s;
      LStripOverSpace(ws[1..], s);
    }
  }
}

=== FILE: layout.dfy ===
/** The fixed shape of a project directory: the three entity categories and
    the folders their datasheets live in, and the scaffold a new project is
    created with. Paths are sequences of path components relative to the
    project root. */
module Layout {
  import opened Text

  /** The kinds of versioned entity. */
  datatype Category = Character | Location | Group

  /** The project's root document: its id is the namespace of every derived
      id, and archives stamp their copy of it. */
  const RootDocument: string := "scenetax.md"

  const LoreFolder: string := "10_Lore_and_Planning"

  /** The folder the tool archives into; archives leave it out. */
  const ArchiveFolder: string := "99_Archive"

  /** The folder holding every version document of a category. */
  function DatasheetFolder(c: Category): (path: seq<string>)
    ensures |path| == 2 && path[0] == LoreFolder
  {
    match c
    case Character => [LoreFolder, "02_Character_Dossiers"]
    case Location => [LoreFolder, "03_Locations"]
    case Group => [LoreFolder, "04_Groups_Factions_Organizations"]
  }

  /** Each category's member name in the Python `Category` enum. */
  function EnumName(c: Category): string {
    match c
    case Character => "CHARACTER"
    case Location => "LOCATION"
    case Group => "GROUP"
  }

  /** The template folder of a category: its enum name, lower-cased. */
  function TemplateKey(c: Category): (r: string)
    ensures r == Lower(EnumName(c))
  {
    match c
    case Character => "character"
    case Location => "location"
    case Group => "group"
  }

  /** Each category keeps its versions in a folder of its own. */
  lemma DatasheetFoldersDistinct(a: Category, b: Category)
    ensures DatasheetFolder(a) == DatasheetFolder(b) <==> a == b
  {
  }

  /** The directories `create_scaffold` makes for a project folder named
      `projectName`, in the order it makes them. */
  function ScaffoldDirs(projectName: string): (dirs: seq<seq<string>>)
    ensures |dirs| == 21
    ensures forall c: Category :: DatasheetFolder(c) in dirs
    ensures [ArchiveFolder] in dirs
  {
    var dirs := [
      ["00_Reference", "00_LoreSeeds_" + projectName],
      ["00_Reference", "01_Research"],
      ["00_Reference", "02_Inspiration"],
      [LoreFolder, "01_Timeline_Maps"],
      [LoreFolder, "02_Character_Dossiers"],
      [LoreFolder, "03_Locations"],
      [LoreFolder, "04_Groups_Factions_Organizations"],
      [LoreFolder, "05_Mythos_and_Language"],
      ["20_Drafts", "01_Volume_01", "01_Chapters"],
      ["20_Drafts", "01_Volume_01", "02_Alt_Versions"],
      ["20_Drafts", "01_Volume_01", "03_Scraps"],
      ["30_Art_and_Design", "01_Illustrations"],
      ["30_Art_and_Design", "02_Maps"],
      ["30_Art_and_Design", "03_Covers"],
      ["30_Art_and_Design", "04_Mockups"],
      ["40_Review_and_Notes", "01_Editor_Feedback"],
      ["40_Review_and_Notes", "02_Self_Review"],
      ["50_Publishables", "01_Ebook"],
      ["50_Publishables", "01_Print"],
      ["50_Publishables", "01_Promo"],
      [ArchiveFolder]
    ];
    assert dirs[4] == DatasheetFolder(Character);
    assert dirs[5] == DatasheetFolder(Location);
    assert dirs[6] == DatasheetFolder(Group);
    assert dirs[20] == [ArchiveFolder];
    dirs
  }
}

=== FILE: meta.dfy ===
/** A document's metadata: the insertion-ordered dictionary that YAML loads
    into and dumps from. Keys keep their first-insertion position; assigning
    to a present key replaces its value in place, assigning to an absent key
    appends it (Python `dict` semantics). */
module Meta {
  import opened Wrappers

  /** A YAML scalar as the tool writes it: text (ids, names, timestamps), an
      integer (version numbers), or any other YAML value, kept opaque. */
  datatype Value = Str(text: string) | Int(number: int) | Opaque(yaml: string)

  type Metadata = seq<(string, Value)>

  /** The keys in iteration order. */
  function Keys(m: Metadata): (ks: seq<string>)
    ensures |ks| == |m|
    ensures forall i :: 0 <= i < |m| ==> ks[i] == m[i].0
  {
    if |m| == 0 then [] else [m[0].0] + Keys(m[1..])
  }

  /** A dictionary never holds the same key twice. */
  predicate DistinctKeys(m: Metadata) {
    forall i, j :: 0 <= i < j < |m| ==> m[i].0 != m[j].0
  }

  /** `m.get(k)`. */
  function Lookup(m: Metadata, k: string): (r: Option<Value>)
    ensures r.None? <==> k !in Keys(m)
  {
    if |m| == 0 then None
    else if m[0].0 == k then Some(m[0].1)
    else Lookup(m[1..], k)
  }

  /** In a dictionary, each entry's key looks up that entry's value. */
  lemma {:induction false} LookupAt(m: Metadata, i: nat)
    requires DistinctKeys(m) && i < |m|
    ensures Lookup(m, m[i].0) == Some(m[i].1)
  {
    if i > 0 {
      assert m[1..][i - 1] == m[i];
      assert m[0].0 != m[i].0;
      LookupAt(m[1..], i - 1);
    }
  }

  /** `m[k] = v`. */
  function Set(m: Metadata, k: string, v: Value): (r: Metadata)
    ensures Lookup(r, k) == Some(v)
    ensures forall j :: j != k ==> Lookup(r, j) == Lookup(m, j)
  {
    if |m| == 0 then [(k, v)]
    else if m[0].0 == k then
      assert ([(k, v)] + m[1..])[1..] == m[1..];
      [(k, v)] + m[1..]
    else
      var rest := Set(m[1..], k, v);
      assert ([m[0]] + rest)[1..] == rest;
      [m[0]] + rest
  }

  /** An assignment keeps every key in place and appends the key when it
      was absent. */
  lemma {:induction false} SetKeyOrder(m: Metadata, k: string, v: Value)
    ensures Keys(Set(m, k, v)) == Keys(m) + (if k in Keys(m) then [] else [k])
  {
    if |m| > 0 {
      if m[0].0 == k {
        assert Keys(Set(m, k, v)) == [k] + Keys(m[1..]);
        assert Keys(m) == [k] + Keys(m[1..]);
      } else {
        var rest := Set(m[1..], k, v);
        SetKeyOrder(m[1..], k, v);
        assert Keys(Set(m, k, v)) == [m[0].0] + Keys(rest) by {
          assert ([m[0]] + rest)[1..] == rest;
        }
        assert Keys(m) == [m[0].0] + Keys(m[1..]);
        assert k in Keys(m) <==> k in Keys(m[1..]);
      }
    }
  }

  /** Assignment never duplicates a key. */
  lemma SetKeepsKeysDistinct(m: Metadata, k: string, v: Value)
    requires DistinctKeys(m)
    ensures DistinctKeys(Set(m, k, v))
  {
    var r := Set(m, k, v);
    var ks := Keys(m);
    var rs := Keys(r);
    SetKeyOrder(m, k, v);
    forall i, j | 0 <= i < j < |r|
      ensures r[i].0 != r[j].0
    {
      assert rs[i] == r[i].0 && rs[j] == r[j].0;
      assert rs[i] == ks[i];
      if j < |m| {
        assert rs[j] == ks[j];
        assert ks[i] == m[i].0 && ks[j] == m[j].0;
      } else {
        assert rs[j] == k && k !in ks;
      }
    }
  }

  /** The keys of `ks` not among `present`, in order. */
  function Absent(ks: seq<string>, present: seq<string>): (r: seq<string>)
    ensures |r| <= |ks|
  {
    if |ks| == 0 then []
    else (if ks[0] in present then [] else [ks[0]]) + Absent(ks[1..], present)
  }

  /** A key that is not looked for does not change what is absent. */
  lemma {:induction false} AbsentIgnores(ks: seq<string>, present: seq<string>, k: string)
    requires k !in ks
    ensures Absent(ks, present + [k]) == Absent(ks, present)
  {
    if |ks| > 0 {
      assert ks[0] in present + [k] <==> ks[0] in present;
      AbsentIgnores(ks[1..], present, k);
    }
  }

  /** The assignments `m[k] = v` for each `(k, v)` of `updates`, in order. */
  function SetAll(m: Metadata, updates: Metadata): Metadata
    decreases |updates|
  {
    if |updates| == 0 then m else SetAll(Set(m, updates[0].0, updates[0].1), updates[1..])
  }

  /** A run of assignments never duplicates a key. */
  lemma {:induction false} SetAllKeepsKeysDistinct(m: Metadata, updates: Metadata)
    ensures DistinctKeys(m) ==> DistinctKeys(SetAll(m, updates))
    decreases |updates|
  {
    if |updates| > 0 && DistinctKeys(m) {
      SetKeepsKeysDistinct(m, updates[0].0, updates[0].1);
      SetAllKeepsKeysDistinct(Set(m, updates[0].0, updates[0].1), updates[1..]);
    }
  }

  /** The first key of a dictionary recurs nowhere after it. */
  lemma HeadKeyIsFresh(m: Metadata)
    requires DistinctKeys(m) && |m| > 0
    ensures m[0].0 !in Keys(m[1..])
    ensures DistinctKeys(m[1..])
  {
    forall i | 0 <= i < |m| - 1
      ensures Keys(m[1..])[i] != m[0].0
    {
      assert m[i + 1].0 != m[0].0;
    }
  }

  /** A run of assignments to distinct keys keeps the existing keys in place
      and appends the assigned keys that were absent, in assignment order. */
  lemma {:induction false} SetAllKeyOrder(m: Metadata, updates: Metadata)
    requires DistinctKeys(updates)
    ensures Keys(SetAll(m, updates)) == Keys(m) + Absent(Keys(updates), Keys(m))
    decreases |updates|
  {
    if |updates| > 0 {
      var rest := updates[1..];
      HeadKeyIsFresh(updates);
      SetAllKeyOrder(Set(m, updates[0].0, updates[0].1), rest);
      assert Keys(updates) == [updates[0].0] + Keys(rest);
      SetKeyOrder(m, updates[0].0, updates[0].1);
      AbsentStep(Keys(m), Keys(Set(m, updates[0].0, updates[0].1)), updates[0].0, Keys(rest));
    }
  }

  /** One assignment, seen from the keys still to be assigned. */
  lemma AbsentStep(before: seq<string>, after: seq<string>, k: string, later: seq<string>)
    requires after == before + (if k in before then [] else [k])
    requires k !in later
    ensures after + Absent(later, after) == before + Absent([k] + later, before)
  {
    assert ([k] + later)[1..] == later;
    var tail := Absent(later, before);
    if k in before {
      assert Absent([k] + later, before) == [] + tail;
      assert after == before;
    } else {
      assert Absent([k] + later, before) == [k] + tail;
      AbsentIgnores(later, before, k);
      assert after + tail == before + ([k] + tail);
    }
  }

  /** A key no assignment touches keeps its value. */
  lemma {:induction false} SetAllKeepsOthers(m: Metadata, updates: Metadata, k: string)
    requires k !in Keys(updates)
    ensures Lookup(SetAll(m, updates), k) == Lookup(m, k)
    decreases |updates|
  {
    if |updates| > 0 {
      assert Keys(updates) == [updates[0].0] + Keys(updates[1..]);
      SetAllKeepsOthers(Set(m, updates[0].0, updates[0].1), updates[1..], k);
    }
  }

  /** An assigned key holds the value assigned to it, when no later
      assignment in the run overrides it. */
  lemma {:induction false} SetAllAssigns(m: Metadata, updates: Metadata, i: nat)
    requires i < |updates|
    requires forall j :: i < j < |updates| ==> updates[j].0 != updates[i].0
    ensures Lookup(SetAll(m, updates), updates[i].0) == Some(updates[i].1)
    decreases |updates|
  {
    var rest := updates[1..];
    var m1 := Set(m, updates[0].0, updates[0].1);
    assert SetAll(m, updates) == SetAll(m1, rest);
    if i == 0 {
      assert updates[0].0 !in Keys(rest) by {
        forall j | 0 <= j < |rest|
          ensures Keys(rest)[j] != updates[0].0
        {
          assert rest[j] == updates[j + 1];
        }
      }
      SetAllKeepsOthers(m1, rest, updates[0].0);
    } else {
      assert rest[i - 1] == updates[i];
      assert forall j :: i - 1 < j < |rest| ==> rest[j] == updates[j + 1];
      SetAllAssigns(m1, rest, i - 1);
    }
  }
}

=== FILE: project.dfy ===
/** `newproject`: validating the project name, choosing the project folder,
    and the scaffold and root document the new project starts with. The
    filesystem check becomes the set of directory names already present; the
    random project id (uuid4) is given. */
module Project {
  import opened Wrappers
  import opened Text
  import opened Meta
  import opened Frontmatter
  import opened Layout

  datatype ProjectError =
    | EmptyName                   // the name is blank once stripped
    | AlreadyExists(folder: string) // a directory of that name exists

  /** Everything `newproject` creates: the project folder, the scaffold
      directories inside it, and the root document written into it. */
  datatype NewProject = NewProject(folder: string, dirs: seq<seq<string>>, root: Document)

  /** The project's display name: the words joined by spaces, with the
      whitespace at both ends removed and nothing else changed. It neither
      starts nor ends with whitespace, and it is empty exactly when the
      joined words are all whitespace. */
  function ProjectName(words: seq<string>): (r: string)
    ensures Stripped(Join(words, " "), r)
    ensures r == "" <==> Blank(Join(words, " "))
  {
    Strip(Join(words, " "))
  }

  /** The project folder: the name lower-cased, spaces turned into underscores. */
  function FolderName(name: string): (folder: string)
    ensures |folder| == |name|
    ensures forall i :: 0 <= i < |name| ==> folder[i] == (if name[i] == ' ' then '_' else LowerChar(name[i]))
    ensures ' ' !in folder
    ensures forall i :: 0 <= i < |folder| ==> !('A' <= folder[i] <= 'Z')
  {
    ReplaceChar(Lower(name), ' ', '_')
  }

  /** A folder name is its own folder name: it has no space and no upper-case
      letter left to change. */
  lemma FolderNameIsFixed(name: string)
    ensures FolderName(FolderName(name)) == FolderName(name)
  {
  }

  /** The root document of a new project: its id and name, in that order,
      and an empty body. */
  function InitialRoot(id: string, name: string): (doc: Document)
    ensures Keys(doc.meta) == ["id", "name"]
    ensures Lookup(doc.meta, "id") == Some(Str(id))
    ensures Lookup(doc.meta, "name") == Some(Str(name))
    ensures doc.body == ""
  {
    var meta := [("id", Str(id)), ("name", Str(name))];
    assert "id"[0] != "name"[0];
    assert meta[1..] == [("name", Str(name))];
    Document(meta, "")
  }

  /** `newproject(words)` next to the directories `existing`. */
  function PlanProject(words: seq<string>, existing: set<string>, freshId: string): (r: Result<NewProject, ProjectError>)
    ensures r == Err(EmptyName) <==> ProjectName(words) == ""
    ensures r.Err? && r.error.AlreadyExists? ==>
      r.error.folder == FolderName(ProjectName(words)) && r.error.folder in existing
    ensures r.Ok? <==> ProjectName(words) != "" && FolderName(ProjectName(words)) !in existing
    ensures r.Ok? ==>
      && r.value.folder == FolderName(ProjectName(words))
      && r.value.dirs == ScaffoldDirs(r.value.folder)
      && r.value.root == InitialRoot(freshId, ProjectName(words))
  {
    var name := ProjectName(words);
    if name == "" then Err(EmptyName)
    else
      var folder := FolderName(name);
      if folder in existing then Err(AlreadyExists(folder))
      else Ok(NewProject(folder, ScaffoldDirs(folder), InitialRoot(freshId, name)))
  }

  /** Once a project is created, asking for the same name again is refused:
      its folder now exists. */
  lemma NewProjectRejectsRepeat(words: seq<string>, existing: set<string>, freshId: string, otherId: string)
    requires PlanProject(words, existing, freshId).Ok?
    ensures var folder := PlanProject(words, existing, freshId).value.folder;
      PlanProject(words, existing + {folder}, otherId) == Err(AlreadyExists(folder))
  {
  }

  /** The root document written for a new project reads back as written, so
      the id later entity ids are derived from is the fresh one. */
  lemma RootDocumentReparses(yaml: Yaml, id: string, name: string, block: string)
    requires block == Block(yaml, InitialRoot(id, name).meta)
    requires !Contains(block, Delimiter)
    requires Reloads(yaml, block, InitialRoot(id, name).meta)
    ensures Parse(yaml, Serialize(yaml, InitialRoot(id, name))) == Ok(InitialRoot(id, name))
    ensures Lookup(Parse(yaml, Serialize(yaml, InitialRoot(id, name))).value.meta, "id") == Some(Str(id))
  {
    ParseSerialize(yaml, InitialRoot(id, name), block);
  }
}

=== FILE: text.dfy ===
/** The handful of Python string operations the tool relies on, written out
    with Python's semantics: `str.split` on one separator character,
    `str.join`, `strip`/`lstrip`, `lower`/`capitalize` (ASCII letters only),
    `str.startswith`, `str.find` and `str(n)` for a natural number. */
module Text {

  /** Python's `str.isspace` for one code point: the characters `strip()`
      and `lstrip()` remove. */
  predicate IsSpace(c: char) {
    || ('\t' <= c <= '\r')
    || ('\U{1C}' <= c <= '\U{1F}')
    || c == ' '
    || c == '\U{85}'
    || c == '\U{A0}'
    || c == '\U{1680}'
    || ('\U{2000}' <= c <= '\U{200A}')
    || c == '\U{2028}'
    || c == '\U{2029}'
    || c == '\U{202F}'
    || c == '\U{205F}'
    || c == '\U{3000}'
  }

  /** The string does not start with whitespace (so `lstrip` leaves it alone). */
  predicate NoLeadingSpace(s: string) {
    |s| == 0 || !IsSpace(s[0])
  }

  /** `s.lstrip()`: the longest suffix of `s` that does not start with
      whitespace, everything before it being whitespace. */
  function LStrip(s: string): (r: string)
    ensures |r| <= |s| && r == s[|s| - |r|..]
    ensures NoLeadingSpace(r)
    ensures forall i :: 0 <= i < |s| - |r| ==> IsSpace(s[i])
  {
    if |s| > 0 && IsSpace(s[0]) then LStrip(s[1..]) else s
  }

  /** `s.rstrip()`: the longest prefix of `s` that does not end with
      whitespace, everything after it being whitespace. */
  function RStrip(s: string): (r: string)
    ensures |r| <= |s| && r == s[..|r|]
    ensures |r| == 0 || !IsSpace(r[|r| - 1])
    ensures forall i :: |r| <= i < |s| ==> IsSpace(s[i])
  {
    if |s| > 0 && IsSpace(s[|s| - 1]) then RStrip(s[..|s| - 1]) else s
  }

  /** `r` occurs in `s` at `i`, with only whitespace before and after it. */
  predicate InnerSliceAt(s: string, r: string, i: int) {
    && 0 <= i && i + |r| <= |s|
    && (forall k :: 0 <= k < |r| ==> r[k] == s[i + k])
    && (forall k :: 0 <= k < i ==> IsSpace(s[k]))
    && (forall k :: i + |r| <= k < |s| ==> IsSpace(s[k]))
  }

  /** `r` is a slice of `s` with only whitespace before and after it. */
  predicate InnerSlice(s: string, r: string) {
    exists i :: 0 <= i <= |s| && InnerSliceAt(s, r, i)
  }

  /** `r` is `s` with the whitespace runs at both ends removed: a slice of
      `s` with only whitespace around it that neither starts nor ends with
      whitespace. */
  predicate Stripped(s: string, r: string) {
    && NoLeadingSpace(r)
    && (|r| == 0 || !IsSpace(r[|r| - 1]))
    && InnerSlice(s, r)
  }

  /** `s.strip()`. It leaves nothing exactly when `s` is all whitespace. */
  function Strip(s: string): (r: string)
    ensures Stripped(s, r)
    ensures r == "" <==> Blank(s)
  {
    StrippedIsInnerSlice(s, LStrip(s), RStrip(LStrip(s)));
    RStrip(LStrip(s))
  }

  /** A prefix `r` of a suffix `left` of `s`, with only whitespace before
      `left` and after `r`, is a slice of `s` with only whitespace around it. */
  lemma StrippedIsInnerSlice(s: string, left: string, r: string)
    requires |left| <= |s| && left == s[|s| - |left|..]
    requires forall k :: 0 <= k < |s| - |left| ==> IsSpace(s[k])
    requires |r| <= |left| && r == left[..|r|]
    requires forall k :: |r| <= k < |left| ==> IsSpace(left[k])
    ensures InnerSlice(s, r)
  {
    var i := |s| - |left|;
    forall k | i + |r| <= k < |s|
      ensures IsSpace(s[k])
    {
      assert s[k] == left[k - i];
    }
    assert InnerSliceAt(s, r, i);
  }

  /** The text is whitespace only (`not s.strip()`). */
  predicate Blank(s: string) {
    forall i :: 0 <= i < |s| ==> IsSpace(s[i])
  }

  /** `s.startswith(p)`. */
  predicate StartsWith(s: string, p: string) {
    |p| <= |s| && s[..|p|] == p
  }

  /** `s.endswith(t)`. */
  predicate EndsWith(s: string, t: string) {
    |t| <= |s| && s[|s| - |t|..] == t
  }

  /** What is left after dropping a prefix is a suffix. */
  lemma EndsWithDrop(s: string, i: nat)
    requires i <= |s|
    ensures EndsWith(s, s[i..])
  {
  }

  lemma EndsWithTrans(a: string, b: string, c: string)
    requires EndsWith(a, b) && EndsWith(b, c)
    ensures EndsWith(a, c)
  {
    assert b[|b| - |c|..] == a[|a| - |b|..][|b| - |c|..];
  }

  /** `p` occurs in `s` starting at index `i`. */
  predicate OccursAt(s: string, p: string, i: int) {
    0 <= i && i + |p| <= |s| && s[i..i + |p|] == p
  }

  /** `p in s`. */
  predicate Contains(s: string, p: string) {
    exists i :: 0 <= i <= |s| && OccursAt(s, p, i)
  }

  /** `s.find(p, from)`: the first occurrence of `p` at or after `from`, or -1.
      Python refuses an empty separator in `split`, the only use made here. */
  function FindFrom(s: string, p: string, from: nat): (r: int)
    requires |p| > 0 && from <= |s|
    ensures r == -1 || (from <= r && OccursAt(s, p, r))
    ensures forall j :: from <= j && (r == -1 || j < r) ==> !OccursAt(s, p, j)
    decreases |s| - from
  {
    if from + |p| > |s| then -1
    else if s[from..from + |p|] == p then from
    else FindFrom(s, p, from + 1)
  }

  /** `s.find(p)`. */
  function Find(s: string, p: string): (r: int)
    requires |p| > 0
    ensures r == -1 <==> !Contains(s, p)
    ensures r != -1 ==> OccursAt(s, p, r) && forall j :: 0 <= j < r ==> !OccursAt(s, p, j)
  {
    FindFrom(s, p, 0)
  }

  /** `s.split(sep)` for a one-character separator: the pieces between
      separators, empty pieces included, so there is always at least one. */
  function Split(s: string, sep: char): (r: seq<string>)
    ensures |r| >= 1
    ensures forall i :: 0 <= i < |r| ==> sep !in r[i]
  {
    if |s| == 0 then [""]
    else
      var rest := Split(s[1..], sep);
      if s[0] == sep then [""] + rest else [[s[0]] + rest[0]] + rest[1..]
  }

  /** `sep.join(parts)`. */
  function Join(parts: seq<string>, sep: string): string {
    if |parts| == 0 then ""
    else if |parts| == 1 then parts[0]
    else parts[0] + sep + Join(parts[1..], sep)
  }

  /** Every character of a join comes from a piece or from the separator,
      so a property all of those characters have holds of the join. */
  lemma {:induction false} JoinKeeps(parts: seq<string>, sep: string, P: char -> bool)
    requires forall j :: 0 <= j < |sep| ==> P(sep[j])
    requires forall i, j :: 0 <= i < |parts| && 0 <= j < |parts[i]| ==> P(parts[i][j])
    ensures forall j :: 0 <= j < |Join(parts, sep)| ==> P(Join(parts, sep)[j])
  {
    if |parts| > 1 {
      var rest := Join(parts[1..], sep);
      JoinKeeps(parts[1..], sep, P);
      var s := parts[0] + sep + rest;
      forall j | 0 <= j < |s|
        ensures P(s[j])
      {
        if j < |parts[0]| {
          assert s[j] == parts[0][j];
        } else if j < |parts[0]| + |sep| {
          assert s[j] == sep[j - |parts[0]|];
        } else {
          assert s[j] == rest[j - |parts[0]| - |sep|];
        }
      }
    }
  }

  /** `s.rfind(c)` for one character: the last index holding `c`, or -1. */
  function LastIndexOf(s: string, c: char): (r: int)
    ensures -1 <= r < |s|
    ensures r >= 0 ==> s[r] == c
    ensures forall j :: r < j < |s| ==> s[j] != c
  {
    if |s| == 0 then -1
    else if s[|s| - 1] == c then |s| - 1
    else LastIndexOf(s[..|s| - 1], c)
  }

  /** Every occurrence of `a` in `s` replaced by `b` (`s.replace(a, b)`). */
  function ReplaceChar(s: string, a: char, b: char): (r: string)
    ensures |r| == |s|
    ensures forall i :: 0 <= i < |s| ==> r[i] == (if s[i] == a then b else s[i])
  {
    if |s| == 0 then "" else [if s[0] == a then b else s[0]] + ReplaceChar(s[1..], a, b)
  }

  function LowerChar(c: char): char {
    if 'A' <= c <= 'Z' then (c as int + 32) as char else c
  }

  function UpperChar(c: char): char {
    if 'a' <= c <= 'z' then (c as int - 32) as char else c
  }

  /** `s.lower()` on ASCII letters. */
  function Lower(s: string): (r: string)
    ensures |r| == |s|
    ensures forall i :: 0 <= i < |s| ==> r[i] == LowerChar(s[i])
  {
    if |s| == 0 then "" else [LowerChar(s[0])] + Lower(s[1..])
  }

  /** Lower-casing introduces no character other than a lower-case letter. */
  lemma LowerKeepsOut(s: string, c: char)
    requires c !in s
    requires !('a' <= c <= 'z')
    ensures c !in Lower(s)
  {
    var r := Lower(s);
    forall i | 0 <= i < |r|
      ensures r[i] != c
    {
      assert r[i] == LowerChar(s[i]) && s[i] != c;
    }
  }

  /** `s.capitalize()` on ASCII letters: first letter upper case, the rest lower case. */
  function Capitalize(s: string): (r: string)
    ensures |r| == |s|
    ensures |s| > 0 ==> r[0] == UpperChar(s[0])
    ensures forall i :: 1 <= i < |s| ==> r[i] == LowerChar(s[i])
  {
    if |s| == 0 then "" else [UpperChar(s[0])] + Lower(s[1..])
  }

  function DigitChar(d: nat): (c: char)
    requires d < 10
    ensures '0' <= c <= '9'
  {
    (48 + d) as char
  }

  /** `str(n)`: the decimal digits of `n`, most significant first, without
      leading zeros. */
  function NatToString(n: nat): (r: string)
    ensures |r| >= 1
    ensures forall i :: 0 <= i < |r| ==> '0' <= r[i] <= '9'
    ensures n < 10 <==> |r| == 1
  {
    if n < 10 then [DigitChar(n)] else NatToString(n / 10) + [DigitChar(n % 10)]
  }

  /** Distinct numbers print differently. */
  lemma {:induction false} NatToStringInjective(a: nat, b: nat)
    requires NatToString(a) == NatToString(b)
    ensures a == b
    decreases a + b
  {
    var s := NatToString(a);
    if a < 10 && b < 10 {
      assert s[0] == DigitChar(a) && s[0] == DigitChar(b);
    } else if a < 10 || b < 10 {
      assert false;
    } else {
      var n := |s|;
      assert s[n - 1] == DigitChar(a % 10) && s[n - 1] == DigitChar(b % 10);
      assert s[..n - 1] == NatToString(a / 10) && s[..n - 1] == NatToString(b / 10);
      NatToStringInjective(a / 10, b / 10);
    }
  }

  /** A string without the separator is not split. */
  lemma {:induction false} SplitNoSeparator(s: string, sep: char)
    requires sep !in s
    ensures Split(s, sep) == [s]
  {
    if |s| > 0 {
      SplitNoSeparator(s[1..], sep);
      assert [s[0]] + s[1..] == s;
    }
  }

  /** Splitting at one separator occurrence splits both sides independently. */
  lemma {:induction false} SplitConcat(a: string, b: string, sep: char)
    ensures Split(a + [sep] + b, sep) == Split(a, sep) + Split(b, sep)
  {
    if |a| == 0 {
      assert a + [sep] + b == [sep] + b;
      assert ([sep] + b)[1..] == b;
    } else {
      assert (a + [sep] + b)[1..] == a[1..] + [sep] + b;
      SplitConcat(a[1..], b, sep);
    }
  }

  /** Joining the pieces of a split with the separator gives the string back. */
  lemma {:induction false} JoinSplit(s: string, sep: char)
    ensures Join(Split(s, sep), [sep]) == s
  {
    if |s| > 0 {
      JoinSplit(s[1..], sep);
      var rest := Split(s[1..], sep);
      if s[0] == sep {
        assert ([""] + rest)[1..] == rest;
      } else if |rest| > 1 {
        assert ([[s[0]] + rest[0]] + rest[1..])[1..] == rest[1..];
        assert Join(rest, [sep]) == rest[0] + [sep] + Join(rest[1..], [sep]);
      }
    }
  }

  /** Splitting a join of separator-free pieces gives the pieces back. */
  lemma {:induction false} SplitJoin(parts: seq<string>, sep: char)
    ensures |parts| >= 1 && (forall i :: 0 <= i < |parts| ==> sep !in parts[i]) ==>
      Split(Join(parts, [sep]), sep) == parts
  {
    if !(|parts| >= 1 && forall i :: 0 <= i < |parts| ==> sep !in parts[i]) {
    } else if |parts| == 1 {
      SplitNoSeparator(parts[0], sep);
    } else {
      SplitJoin(parts[1..], sep);
      SplitNoSeparator(parts[0], sep);
      SplitConcat(parts[0], Join(parts[1..], [sep]), sep);
      assert [parts[0]] + parts[1..] == parts;
    }
  }

  /** Joining the `sep`-pieces with another one-character string replaces
      every separator by that character. */
  lemma {:induction false} JoinSplitReplaces(s: string, sep: char, with: char)
    ensures Join(Split(s, sep), [with]) == ReplaceChar(s, sep, with)
  {
    if |s| > 0 {
      JoinSplitReplaces(s[1..], sep, with);
      var rest := Split(s[1..], sep);
      if s[0] == sep {
        assert ([""] + rest)[1..] == rest;
      } else if |rest| > 1 {
        assert ([[s[0]] + rest[0]] + rest[1..])[1..] == rest[1..];
        assert Join(rest, [with]) == rest[0] + [with] + Join(rest[1..], [with]);
      }
    }
  }
}

=== FILE: versions.dfy ===
/** How `create` names an entity and picks the number of its next version:
    the display name and slug built from the name words, the count of
    version files already present for the slug, and the choice between
    refusing, starting the first version, or branching from an existing one. */
module Versions {
  import opened Wrappers
  import opened Text

  /** The entity's display name: the name words joined by spaces. Words
      without spaces of their own can be read back from it. */
  function DisplayName(words: seq<string>): (r: string)
    ensures |words| >= 1 && (forall i :: 0 <= i < |words| ==> ' ' !in words[i]) ==> Split(r, ' ') == words
  {
    SplitJoin(words, ' ');
    Join(words, " ")
  }

  function LowerAll(words: seq<string>): (r: seq<string>)
    ensures |r| == |words|
    ensures forall i :: 0 <= i < |words| ==> r[i] == Lower(words[i])
  {
    if |words| == 0 then [] else [Lower(words[0])] + LowerAll(words[1..])
  }

  /** The entity's slug: the lower-cased name words joined by `_`. It holds
      no upper-case letter, so names differing only in case share a slug. */
  function Slug(words: seq<string>): (r: string)
    ensures forall i :: 0 <= i < |r| ==> !('A' <= r[i] <= 'Z')
  {
    var lowered := LowerAll(words);
    JoinKeeps(lowered, "_", c => !('A' <= c <= 'Z'));
    Join(lowered, "_")
  }

  /** The slug splits back into the lower-cased words when no word holds
      an underscore of its own. */
  lemma SlugSplitsIntoWords(words: seq<string>)
    requires |words| >= 1
    requires forall i :: 0 <= i < |words| ==> '_' !in words[i]
    ensures Split(Slug(words), '_') == LowerAll(words)
  {
    var lowered := LowerAll(words);
    forall i | 0 <= i < |lowered|
      ensures '_' !in lowered[i]
    {
      LowerKeepsOut(words[i], '_');
    }
    SplitJoin(lowered, '_');
  }

  /** What the version count compares with the slug: the file stem with its
      last `_`-separated segment removed. That is the text before the last
      underscore, or the empty text when there is none: `aria_bell_v1` gives
      `aria_bell`, `aria` gives the empty string. */
  function ProcessedName(stem: string): (r: string)
    ensures var i := LastIndexOf(stem, '_');
      r == if i >= 0 then stem[..i] else ""
  {
    JoinInitIsBeforeLastSeparator(stem);
    var parts := Split(stem, '_');
    Join(parts[..|parts| - 1], "_")
  }

  /** Dropping the last `_`-piece of a text and joining the rest gives the
      text before its last underscore. */
  lemma JoinInitIsBeforeLastSeparator(stem: string)
    ensures var parts := Split(stem, '_');
      var i := LastIndexOf(stem, '_');
      Join(parts[..|parts| - 1], "_") == if i >= 0 then stem[..i] else ""
  {
    var i := LastIndexOf(stem, '_');
    if i >= 0 {
      assert stem == stem[..i] + "_" + stem[i + 1..];
      JoinInitOfSuffixed(stem[..i], stem[i + 1..]);
    } else {
      SplitNoSeparator(stem, '_');
    }
  }

  /** Dropping the last `_`-piece of `prefix_segment` and joining the rest
      gives `prefix`, when the segment holds no underscore. */
  lemma {:induction false} JoinInitOfSuffixed(prefix: string, segment: string)
    requires '_' !in segment
    ensures var parts := Split(prefix + "_" + segment, '_');
      Join(parts[..|parts| - 1], "_") == prefix
  {
    SplitConcat(prefix, segment, '_');
    SplitNoSeparator(segment, '_');
    var parts := Split(prefix + "_" + segment, '_');
    assert parts[..|parts| - 1] == Split(prefix, '_');
    JoinSplit(prefix, '_');
  }

  /** A stem built as `prefix_segment`, the segment free of underscores,
      is counted for exactly `prefix`. */
  lemma {:induction false} ProcessedNameOfSuffixed(prefix: string, segment: string)
    requires '_' !in segment
    ensures ProcessedName(prefix + "_" + segment) == prefix
  {
    JoinInitOfSuffixed(prefix, segment);
  }

  /** The stem of version `n` of the entity with this slug. */
  function VersionStem(slug: string, n: nat): string {
    slug + "_v" + NatToString(n)
  }

  /** The file name of version `n`. */
  function VersionFile(slug: string, n: nat): string {
    VersionStem(slug, n) + ".md"
  }

  /** A version file is counted for its own slug. */
  lemma VersionStemCounts(slug: string, n: nat)
    ensures ProcessedName(VersionStem(slug, n)) == slug
  {
    var digits := NatToString(n);
    assert VersionStem(slug, n) == slug + "_" + ("v" + digits);
    assert '_' !in "v" + digits by {
      assert forall j :: 1 <= j < |"v" + digits| ==> ("v" + digits)[j] == digits[j - 1];
    }
    ProcessedNameOfSuffixed(slug, "v" + digits);
  }

  /** The listed stems counted as versions of `slug`, in listing order. */
  function Matching(stems: seq<string>, slug: string): (r: seq<string>)
    ensures |r| <= |stems|
    ensures forall i :: 0 <= i < |r| ==> ProcessedName(r[i]) == slug && r[i] in stems
  {
    if |stems| == 0 then []
    else
      var last := stems[|stems| - 1];
      var before := Matching(stems[..|stems| - 1], slug);
      if ProcessedName(last) == slug then before + [last] else before
  }

  /** The version count: every listed stem whose processed name is the slug. */
  method CountVersions(stems: seq<string>, slug: string) returns (count: nat)
    ensures count == |Matching(stems, slug)|
  {
    count := 0;
    var i := 0;
    while i < |stems|
      invariant 0 <= i <= |stems|
      invariant count == |Matching(stems[..i], slug)|
    {
      assert stems[..i + 1][..i] == stems[..i];
      if ProcessedName(stems[i]) == slug {
        count := count + 1;
      }
      i := i + 1;
    }
    assert stems[..|stems|] == stems;
  }

  /** A stem is counted exactly when it is listed and its processed name is the slug. */
  lemma {:induction false} MatchingIsFilter(stems: seq<string>, slug: string, s: string)
    ensures s in Matching(stems, slug) <==> s in stems && ProcessedName(s) == slug
  {
    if |stems| > 0 {
      var init := stems[..|stems| - 1];
      MatchingIsFilter(init, slug, s);
      assert stems == init + [stems[|stems| - 1]];
    }
  }

  /** The version chosen to branch from (0: none, the first version is
      built from templates) and the number the new version gets. */
  datatype Selection = Selection(source: nat, version: nat)

  datatype SelectError =
    | AlreadyExists   // no version requested, yet versions exist
    | NoSuchVersion   // the requested version is not among the existing ones

  /** The `from_version` resolution of `create`: `fromVersion` 0 stands for
      "not given", -1 for "latest", anything else for a version number. */
  function SelectVersion(count: nat, fromVersion: int): (r: Result<Selection, SelectError>)
    ensures r == Err(AlreadyExists) <==> fromVersion == 0 && count > 0
    ensures r == Err(NoSuchVersion) <==>
      fromVersion != 0 && fromVersion != -1 && !(1 <= fromVersion <= count)
    ensures r.Ok? ==> r.value.version == count + 1
    ensures r.Ok? ==> (r.value.source == 0 <==> count == 0)
    ensures r.Ok? ==> r.value.source <= count
    ensures r.Ok? ==> r.value.source == (if fromVersion <= 0 then count else fromVersion)
  {
    if fromVersion == 0 && count > 0 then Err(AlreadyExists)
    else
      var requested := if fromVersion == 0 then -1 else fromVersion;
      if requested == -1 then Ok(Selection(count, count + 1))
      else if requested < 1 || requested > count then Err(NoSuchVersion)
      else Ok(Selection(requested, count + 1))
  }

  /** The stems of versions 1 to `k` of a slug. */
  function VersionStems(slug: string, k: nat): (r: seq<string>)
    ensures |r| == k
    ensures forall i :: 0 <= i < k ==> r[i] == VersionStem(slug, i + 1)
  {
    if k == 0 then [] else VersionStems(slug, k - 1) + [VersionStem(slug, k)]
  }

  /** The listing holds versions 1 to `k` of the slug, each once, and no other
      stem that counts for it. */
  ghost predicate Contiguous(stems: seq<string>, slug: string, k: nat) {
    multiset(Matching(stems, slug)) == multiset(VersionStems(slug, k))
  }

  /** With contiguous versions the count is the number of the latest one. */
  lemma ContiguousCount(stems: seq<string>, slug: string, k: nat)
    requires Contiguous(stems, slug, k)
    ensures |Matching(stems, slug)| == k
  {
    assert |multiset(Matching(stems, slug))| == |multiset(VersionStems(slug, k))|;
  }

  /** With contiguous versions, the next version's file does not exist yet, so
      writing it overwrites nothing. */
  lemma NextVersionIsFresh(stems: seq<string>, slug: string, k: nat)
    requires Contiguous(stems, slug, k)
    ensures VersionStem(slug, k + 1) !in stems
  {
    var next := VersionStem(slug, k + 1);
    if next in stems {
      VersionStemCounts(slug, k + 1);
      MatchingIsFilter(stems, slug, next);
      assert next in multiset(VersionStems(slug, k));
      var i :| 0 <= i < k && VersionStems(slug, k)[i] == next;
      assert NatToString(i + 1) == NatToString(k + 1) by {
        assert VersionStem(slug, i + 1) == VersionStem(slug, k + 1);
        assert |NatToString(i + 1)| == |NatToString(k + 1)|;
        assert NatToString(i + 1) == VersionStem(slug, i + 1)[|slug| + 2..];
        assert NatToString(k + 1) == VersionStem(slug, k + 1)[|slug| + 2..];
      }
      NatToStringInjective(i + 1, k + 1);
    }
  }

  /** Writing version `k + 1` keeps the versions contiguous. */
  lemma NextVersionKeepsContiguity(stems: seq<string>, slug: string, k: nat)
    requires Contiguous(stems, slug, k)
    ensures Contiguous(stems + [VersionStem(slug, k + 1)], slug, k + 1)
  {
    var next := VersionStem(slug, k + 1);
    VersionStemCounts(slug, k + 1);
    assert (stems + [next])[..|stems|] == stems;
    assert Matching(stems + [next], slug) == Matching(stems, slug) + [next];
  }

  /** The listing after `n` calls of `create` with `-v -1` ("branch from the
      latest"), each adding the file of the version it selects. */
  function AfterLatest(stems: seq<string>, slug: string, n: nat): seq<string> {
    if n == 0 then stems
    else
      var before := AfterLatest(stems, slug, n - 1);
      match SelectVersion(|Matching(before, slug)|, -1)
      case Ok(sel) => before + [VersionStem(slug, sel.version)]
      case Err(_) => before
  }

  /** Starting with no version of the slug, `n` branch-from-latest creations
      leave exactly versions 1 to `n`, and each one writes a new file. */
  lemma {:induction false} LatestChainIsContiguous(stems: seq<string>, slug: string, n: nat)
    requires Matching(stems, slug) == []
    ensures Contiguous(AfterLatest(stems, slug, n), slug, n)
    ensures n > 0 ==> VersionStem(slug, n) !in AfterLatest(stems, slug, n - 1)
  {
    if n > 0 {
      LatestChainIsContiguous(stems, slug, n - 1);
      LatestStep(AfterLatest(stems, slug, n - 1), slug, n - 1);
    }
  }

  /** One branch-from-latest creation on top of versions 1 to `k`. */
  lemma LatestStep(before: seq<string>, slug: string, k: nat)
    requires Contiguous(before, slug, k)
    ensures AfterLatest(before, slug, 1) == before + [VersionStem(slug, k + 1)]
    ensures VersionStem(slug, k + 1) !in before
    ensures Contiguous(before + [VersionStem(slug, k + 1)], slug, k + 1)
  {
    assert AfterLatest(before, slug, 1) == before + [VersionStem(slug, k + 1)] by {
      ContiguousCount(before, slug, k);
      assert SelectVersion(k, -1) == Ok(Selection(k, k + 1));
    }
    NextVersionIsFresh(before, slug, k);
    NextVersionKeepsContiguity(before, slug, k);
  }
}

=== FILE: wrappers.dfy ===
/** Option and Result, the two failure-carrying types used across the model.
    Result is failure-compatible, so `:-` propagates an error. */
module Wrappers {

  datatype Option<+T> = None | Some(value: T)

  datatype Result<+T, +E> = Ok(value: T) | Err(error: E) {

    predicate IsFailure() {
      Err?
    }

    function PropagateFailure<U>(): Result<U, E>
      requires Err?
    {
      Err(error)
    }

    function Extract(): T
      requires Ok?
    {
      value
    }
  }

  /** `f` applied to each element in order, stopping at the first failure. */
  function MapAll<A, B, E>(f: A -> Result<B, E>, xs: seq<A>): (r: Result<seq<B>, E>)
    ensures r.Ok? ==> |r.value| == |xs| && forall i :: 0 <= i < |xs| ==> f(xs[i]) == Ok(r.value[i])
    ensures r.Err? <==> exists i :: 0 <= i < |xs| && f(xs[i]).Err?
  {
    if |xs| == 0 then Ok([])
    else
      match f(xs[0])
      case Err(e) => Err(e)
      case Ok(y) =>
        match MapAll(f, xs[1..])
        case Err(e) =>
          ghost var i :| 0 <= i < |xs| - 1 && f(xs[1..][i]).Err?;
          assert f(xs[i + 1]).Err?;
          Err(e)
        case Ok(ys) =>
          assert forall i :: 1 <= i < |xs| ==> xs[i] == xs[1..][i - 1] && ([y] + ys)[i] == ys[i - 1];
          Ok([y] + ys)
  }
}
